=== FILE: README.md ===
# OpenVR OSC receiver: row building, clock bookkeeping and the recorder queue

`OpenVRReceiver` (openvr_osc_receiver.py) listens for OSC packets sent by an OpenVR
recorder and appends one text line per packet to a log file. This project models its
pipeline in Dafny:

- **Layout** (`layout.dfy`): the header and format lists the constructor builds from the
  enabled addresses. These are 14 base columns, 24 button and axis columns when a
  controller-class address is enabled, and 168 hand-joint columns when a hand address is
  enabled. The module also holds the header line written when the file is opened.
- **Decoder** (`decoder.dfy`): the packet callback's row builders. Every row starts as
  `['', '', -1]` followed by NaNs. Python slice assignment then copies argument slices
  into it, for head-class (8 or 9 arguments), controller-class (32 or 33) and hand
  (151 or 176) packets.
- **Receiver** (`receiver.dfy`): the state between callbacks:
  - the recording switch;
  - the reference epoch latched by the first packet;
  - the latest recorded sender time;
  - the queue.

  The packet callback, `log_message`, `start_recording` and `stop_recording` are
  functions from one state to the next. An `IndexError` raised in the callback is an
  outcome, not a crash.
- **Writer** (`writer.dfy`): the recorder thread. It takes the oldest row, skips an empty
  one, and renders the rest with the joined format string. A row the format string
  rejects ends the thread.
- **Session** (`session.dfy`): packets, messages, the recording switch and writer turns
  as an event trace, plus `close`, which drains the queue and stops the thread.
- **Cli** (`cli.dfy`): the command line's check that every `-a` address is supported.
- **Cells** and **Text** (`cells.dfy`, `text.dfy`): Python's list slicing and slice
  assignment, including their clamping and the way a slice assignment can lengthen a
  list. Also `str.join`, `str.split` on one character, and `str.strip`.
- **Findings** (`findings.dfy`): two places where the code does not do what its header
  and timing columns promise. Each is shown on a concrete input against the code as
  written, with the corrected behaviour proved for all inputs.

The callback's behaviour depends on a `Revision` parameter:

- `AsWritten` follows the code line by line: the epoch stamp comes from argument 1, and
  the hand block starts at cell 38.
- `Corrected` fixes both findings.

Every lemma about the receiver and the session holds for both revisions unless it names
one. Floats are modelled as reals. How `str.format` renders a cell (digits, rounding, the
text of `nan`) is a function parameter. The receive time from `time.perf_counter()` is
an argument of each event.

## Model

| member | source | states |
|---|---|---|
| Cells.Slice | openvr_osc_receiver.py:165 | `xs[a:b]` clamps both ends to the length: it has `max(0, min(b, len(xs)) - a)` elements, the `k`-th being `xs[a + k]`; inside bounds that is `b - a` elements from `a` on, and past the end or with `b <= a` it is empty |
| Cells.Splice | openvr_osc_receiver.py:155-168 | `s[i:j] = t` replaces cells `i .. j-1` in place when the slice lies inside `s` and `t` has its length, and never touches cells before `i`. Otherwise the list grows to `i + |t|` when `i <= |s| <= j`, and becomes `s + t` when `i` is past the end |
| Cells.SpliceNumeric | openvr_osc_receiver.py:165 | splicing numeric cells into a row at or beyond a position keeps the row numeric from there on, however the bounds clamp |
| Cells.Blank | openvr_osc_receiver.py:144 | the starting row has `''`, `''`, `-1` and then NaN in every remaining cell, one cell per format specifier |
| Text.Join | openvr_osc_receiver.py:219 | joining no names gives the empty string and joining one name gives that name |
| Text.Split | openvr_osc_receiver.py:232 | splitting on a character gives at least one piece, and no piece contains that character |
| Text.SplitJoin | openvr_osc_receiver.py:219 | joining names with a one-character separator that none contains is undone by splitting on that separator |
| Text.Strip | openvr_osc_receiver.py:155 | `s.strip(c)` neither starts nor ends with `c` and is no longer than `s` |
| Text.StripOneLeading | openvr_osc_receiver.py:155 | an address such as `/HMD` strips to the text after its leading slash |
| Layout.HandColumns | openvr_osc_receiver.py:76-99 | there are 168 hand columns, seven for each of the 24 joints |
| Layout.Header | openvr_osc_receiver.py:62-99 | the header has 14 columns, plus 24 with a controller-class address, plus 168 with a hand address |
| Layout.Formats | openvr_osc_receiver.py:64-100 | the format list has exactly as many specifiers as the header has columns |
| Layout.HeaderLine | openvr_osc_receiver.py:216-219 | the header line is non-empty and ends in a newline |
| Layout.JointColumns | openvr_osc_receiver.py:76-99 | joint `k`'s seven columns are `<joint>_posX` .. `<joint>_rotW` in field order |
| Layout.HandColumnsFromJoint | openvr_osc_receiver.py:76-99 | in the columns of joints `k` .. 23, joint `j`'s seven columns start at `7 * (j - k)` |
| Layout.HandColumnsJoint | openvr_osc_receiver.py:76-99 | the 168 hand columns are the 24 joints' seven columns each, joint after joint |
| Layout.Width | openvr_osc_receiver.py:62-100 | the format list has one specifier per header column: 14, plus 24 with a controller-class address, plus 168 with a hand address |
| Layout.HandBase | openvr_osc_receiver.py:62-76 | the hand columns start right after the base and controller columns, and with a hand address they end the header |
| Layout.FormatSpecs | openvr_osc_receiver.py:64-100 | the format list is `{:s}`, `{:s}`, `{:d}` followed by a fixed-precision float specifier for every other header column |
| Layout.HeaderBlocks | openvr_osc_receiver.py:62-72 | the header starts with the 14 base columns, followed by the 24 button and axis columns when a controller-class address is enabled |
| Layout.HeaderHandColumns | openvr_osc_receiver.py:74-99 | with a hand address, joint `k`'s seven columns sit at `HandBase + 7k` in the header |
| Layout.HeaderLineColumns | openvr_osc_receiver.py:216-219 | the header line ends in a newline, and splitting the rest on a one-character separator gives the header list back |
| Layout.ShapedRenders | openvr_osc_receiver.py:232 | a row with two strings, an integer, then numbers or NaN, and a cell for every column, is accepted by the joined format string |
| Decoder.ClassOf | openvr_osc_receiver.py:153-187 | an address is head-class, controller-class or a hand exactly when it is in that branch's address list |
| Decoder.Meta | openvr_osc_receiver.py:155-161 | the seven metadata cells are a string name cell, an empty message, the device id, the sender and receive times in milliseconds, and both times relative to the epoch in milliseconds |
| Decoder.MetaName | openvr_osc_receiver.py:155 | the name cell is the address with its slashes stripped |
| Decoder.Fill | openvr_osc_receiver.py:165 | `row[i:j] = args[a:b]` with equal lengths and in-bounds slices overwrites exactly cells `i .. j-1` with the arguments from `a`; cells before `i` are never changed |
| Decoder.HeadRow | openvr_osc_receiver.py:153-168 | a head-class row holds the metadata. With 8 arguments, cells 7..12 hold arguments 2..7 and rotW keeps its value. With 9 arguments, cells 7..13 hold arguments 2..8. Any other count leaves cells 7..13 alone, and cells from 14 on are never touched |
| Decoder.ControllerRow | openvr_osc_receiver.py:170-185 | a controller-class row holds the metadata and the pose as a head-class row does. The 24 button and axis cells 14..37 hold the arguments from 8 (32 arguments) or 9 (33 arguments). Any other count leaves cells 7..37 alone |
| Decoder.EulerJoints | openvr_osc_receiver.py:197-202 | the Euler joint loop never changes cells before the hand block, and on a 151-argument packet never shortens the row |
| Decoder.EulerJointsOutside | openvr_osc_receiver.py:199-202 | on a row holding the whole block, the first `n` loop iterations leave every cell before the block and from joint `n` on unchanged |
| Decoder.EulerJointStep | openvr_osc_receiver.py:201-202 | one more iteration writes joint `k`'s six values and keeps the joints written before |
| Decoder.EulerJointsValues | openvr_osc_receiver.py:199-202 | after `n` iterations, joints `0 .. n-1` hold, in their first six cells, the six arguments from `7 + 6j` |
| Decoder.EulerJointsRotW | openvr_osc_receiver.py:199-202 | the Euler loop never writes a joint's rotW cell |
| Decoder.HandPose | openvr_osc_receiver.py:187-198 | a hand row's cells 0..13 hold the metadata (id -1, timestamp argument 0), then arguments 1..6 (151 arguments, rotW kept) or 1..7 (176 arguments); cells from 14 on are untouched |
| Decoder.HandJoints | openvr_osc_receiver.py:197-205 | the joint block never changes cells before its base and never shortens the row |
| Decoder.HandRow | openvr_osc_receiver.py:187-205 | a hand row holds the metadata and the hand pose for 151 or 176 arguments. For any other count it equals the starting row from cell 7 on. It keeps its length when the row holds the whole block |
| Decoder.HandEulerJoints | openvr_osc_receiver.py:197-202 | on a 151-argument packet joint `k` holds arguments `7 + 6k` .. `12 + 6k` in its first six cells |
| Decoder.HandEulerRotW | openvr_osc_receiver.py:197-202 | on a 151-argument packet every joint's rotW cell keeps the value of the starting row |
| Decoder.HandQuatJoints | openvr_osc_receiver.py:203-205 | on a 176-argument packet joint `k` holds arguments `8 + 7k` .. `14 + 7k` |
| Decoder.HandRowOutsideBlock | openvr_osc_receiver.py:187-205 | a hand packet leaves every cell from 14 on outside the hand block as it was |
| Decoder.SampleRow | openvr_osc_receiver.py:144-205 | the enqueued row has at least one cell per column, and exactly one unless a hand block overruns it. It holds the metadata of a known device class. For an enabled address of no known class it is the blank row |
| Decoder.SampleNumeric | openvr_osc_receiver.py:144-205 | every cell of a sample from position 3 on is an integer, a float or NaN |
| Decoder.SampleShaped | openvr_osc_receiver.py:144-205 | with an integer device id, a sample has two strings, an integer, then numbers |
| Decoder.SampleRenders | openvr_osc_receiver.py:144-232 | such a sample is accepted by the joined format string of the layout it was built for |
| Receiver.Init | openvr_osc_receiver.py:47-59 | a new receiver has received nothing and its queue is empty, and it records exactly when `auto_record` is set. Both epoch stamps and the latest sender time hold the placeholder -1.0 |
| Receiver.StampIndex | openvr_osc_receiver.py:148 | the argument the epoch's sender stamp is read from: argument 1 as written; corrected, argument 0 for a hand and 1 otherwise, matching the timestamp argument of lines 154, 171 and 188 |
| Receiver.HandBaseOf | openvr_osc_receiver.py:199-205 | the first cell of the hand block: 38 as written; corrected, right after the base and controller columns, so that with a hand address the block ends the header |
| Receiver.Handle | openvr_osc_receiver.py:139-209 | The callback raises exactly when the first packet lacks the epoch stamp argument, or a recorded packet lacks its id or timestamp. The epoch is latched once, from the first packet. When recording, exactly the sample row is appended and the latest sender time is updated; otherwise the queue is untouched. Nothing else changes |
| Receiver.Receive | openvr_osc_receiver.py:111-113 | a packet for an address that is not mapped, or that arrives while the server is not listening, changes nothing; otherwise at most one row is appended and the existing rows stay |
| Receiver.HandleKeepsValid | openvr_osc_receiver.py:144-209 | every queued row has a cell for every column, and with the corrected hand block exactly one |
| Receiver.ReceiveKeepsValid | openvr_osc_receiver.py:111-113 | delivering a packet keeps every queued row at least as wide as the header |
| Receiver.LogRow | openvr_osc_receiver.py:244-261 | a message row holds the device, the quoted message, -1, the latest sender time, the receive time and both relative times. Before any packet the sender and relative times are NaN. Every data cell is NaN, and there is one cell per column |
| Receiver.LogMessage | openvr_osc_receiver.py:238-264 | `log_message` appends exactly its row, whether or not recording is on, and changes nothing else |
| Receiver.LogMessageKeepsValid | openvr_osc_receiver.py:255-264 | a message row keeps every queued row at least as wide as the header |
| Receiver.SampleCarriesLatest | openvr_osc_receiver.py:154-195 | a recorded sample carries, in cells 3 and 5, the sender time the callback stores as the latest one, and in cell 6 its receive time relative to the epoch |
| Receiver.MessageAfterSample | openvr_osc_receiver.py:245-247 | a message logged right after a sample has the same sender time and relative sender time as that sample |
| Receiver.MessageAfterUnrecorded | openvr_osc_receiver.py:244-247 | a first packet that arrives while recording is off latches the epoch (lines 147-152) but leaves the latest sender time at the -1.0 of line 50, so the next message has sender time -1000 ms and relative sender time `(-1.0 - stamp) * 1000`, not NaN |
| Receiver.StartRecording | openvr_osc_receiver.py:270-273 | `start_recording` turns recording on and changes nothing else |
| Receiver.StopRecording | openvr_osc_receiver.py:276-279 | `stop_recording` turns recording off and changes nothing else, and the file stays open |
| Writer.Line | openvr_osc_receiver.py:232 | a row's line is non-empty and ends in a newline |
| Writer.Rendered | openvr_osc_receiver.py:232 | there is one rendered field per specifier, each the rendering of its cell; extra cells are ignored |
| Writer.LineFields | openvr_osc_receiver.py:232 | a written line ends in a newline and splits back into exactly the rendered fields |
| Writer.Written | openvr_osc_receiver.py:231-232 | a non-empty row the format string accepts contributes exactly its line; an empty row, or one the format string rejects, contributes none |
| Writer.LinesAppend | openvr_osc_receiver.py:224-233 | the lines of two runs of rows are the lines of the first followed by those of the second |
| Writer.WriteNext | openvr_osc_receiver.py:224-235 | A turn of the thread takes the oldest row. It writes the row's line, skips it if empty, or stops when the format string rejects it. A stopped thread or an empty queue changes nothing |
| Writer.FirstUnwritable | openvr_osc_receiver.py:231-232 | every row before the returned position can be handled without raising, and the row at that position cannot |
| Writer.DrainStops | openvr_osc_receiver.py:232 | a row the format string rejects is lost, and the thread stops |
| Writer.Drain | openvr_osc_receiver.py:222-235 | a stopped thread takes no rows, and a running one never adds any |
| Writer.DrainEnds | openvr_osc_receiver.py:224-235 | the thread keeps taking rows until the queue is empty or it has stopped |
| Writer.DrainWrites | openvr_osc_receiver.py:222-235 | The thread writes the line of every row before the first one it cannot format, then loses that row and stops. If there is no such row, it writes every line, empties the queue and keeps running |
| Session.Open | openvr_osc_receiver.py:105-122 | a new session's file holds just the header line, the thread runs and the server listens |
| Session.Step | openvr_osc_receiver.py:139-279 | no packet, message, switch or writer turn changes the configuration or whether the server listens |
| Session.Run | openvr_osc_receiver.py:139-279 | the same holds over any run of events |
| Session.StepAppends | openvr_osc_receiver.py:207-209 | a packet or message appends exactly the rows it adds and leaves the file alone |
| Session.StepKeepsConforming | openvr_osc_receiver.py:144-264 | with integer device ids, every event keeps every queued row writable |
| Session.TurnLedger | openvr_osc_receiver.py:224-233 | a writer turn moves the oldest row's line from the queue to the file without changing what the file will hold |
| Session.StepLedger | openvr_osc_receiver.py:207-264 | one event grows what the file will hold by exactly the lines of the rows it adds |
| Session.RunKeepsConforming | openvr_osc_receiver.py:139-264 | over any run with integer device ids, every queued row stays writable |
| Session.RunLedger | openvr_osc_receiver.py:139-264 | Over such a run the thread never stops. What the file will hold grows by exactly the lines of the emitted rows, in emission order |
| Session.EmittedConforming | openvr_osc_receiver.py:139-264 | every row such a run emits is non-empty and is accepted by the format string |
| Session.StepKeepsEpoch | openvr_osc_receiver.py:147-150 | once a packet has arrived, no event changes the epoch |
| Session.EpochLatchedOnce | openvr_osc_receiver.py:147-150 | once a packet has arrived, the epoch stays the same over any run |
| Session.StoppedRecordsMessagesOnly | openvr_osc_receiver.py:152-264 | while recording is off, a run emits exactly one row per `log_message` and none per packet |
| Session.Close | openvr_osc_receiver.py:296-309 | when `close` returns, recording and listening are off, the queue is empty and the thread has stopped |
| Session.CloseReturns | openvr_osc_receiver.py:305-306 | `close` returns exactly when the queue is already empty, or when the thread is running and every row except possibly the last can be formatted |
| Session.CloseWritesLedger | openvr_osc_receiver.py:296-309 | with every queued row writable, `close` returns and the file holds every line that was due |
| Session.SessionFile | openvr_osc_receiver.py:105-309 | For a whole session with integer device ids, `close` returns. The file then holds the header line and one line per emitted row, in emission order |
| Cli.FirstUnsupported | openvr_osc_receiver.py:338-341 | the first address that is not one of the seven supported ones, or none when all are supported |
| Cli.SelectDevices | openvr_osc_receiver.py:334-344 | Without `-a` the default four addresses are used. With `-a` the addresses are used as given exactly when all are supported; otherwise an unsupported address is reported |
| Cli.ReportsFirst | openvr_osc_receiver.py:338-341 | the reported address is the first unsupported one in command-line order |
| Cli.SelectedHaveClass | openvr_osc_receiver.py:335-342 | every address the command line lets through belongs to a head, controller or hand branch |
| Findings.QuatOverrun | openvr_osc_receiver.py:203-205 | as written, a quaternion hand packet on a 182-cell row grows it to 206 cells, leaves cell 14 as it was and puts argument 8 in cell 38 |
| Findings.HandsOnlyHeader | openvr_osc_receiver.py:62-99 | with only a hand address the header has 182 columns, and `thumb0_posX` is cell 14 |
| Findings.HandBlockMisplaced | openvr_osc_receiver.py:205 | as written with hands only, a quaternion hand row has 206 cells, cell 14 is NaN under the `thumb0_posX` header, and the `thumb0_posX` value, argument 8, is in cell 38 |
| Findings.QuatHandColumns | openvr_osc_receiver.py:74-99 | corrected, a quaternion hand row has one cell per column, and joint `k`'s seven columns hold its seven values |
| Findings.EulerHandColumns | openvr_osc_receiver.py:74-99 | corrected, an Euler hand row puts joint `k`'s six values under its `posX` .. `rotZ` columns and NaN under `rotW` |
| Findings.HandEpochAsWritten | openvr_osc_receiver.py:148 | as written, a first 176-argument hand packet with timestamp 10.0 and posX 0.5, received at 2.0 s, latches the epoch at sender time 0.5 and is recorded 9500 ms after it, at receive-relative time 0 |
| Findings.FirstSampleAtZero | openvr_osc_receiver.py:147-195 | the first recorded sample is at relative time 0 on both clocks: as written for head and controller packets, and for hand packets once the epoch stamp is read from argument 0 |

## Left out

- Threads, the lock and the recorder's sleep: the thread, the callback and the caller are modelled as one event trace applied in order. The lock serialises the thread's `empty()`/`get()` pair, but the queue is a `multiprocessing.Queue` (line 12): `put` hands the row to a feeder thread, so `empty()` can be true while rows are still buffered. Interleavings in which a row is not yet visible are not modelled.
- The race between two first packets on the epoch check (lines 147-150) is left out, because events are applied one at a time.
- `wait_for_data` (lines 282-293) is a timed busy wait on `samples_received`. It is left out because clocks are parameters here; the flag it polls is `State.received`.
- `time.perf_counter()` is not modelled: each event carries its receive time as an argument.
- Floats are modelled as reals, and NaN is its own cell kind. Rounding and float overflow are not modelled.
- `str.format`'s rendering of a cell (digits, rounding, the text of `nan`) is a function parameter of the writer. Only whether a specifier accepts a cell is modelled: `{:s}` takes a string, `{:d}` an integer, a fixed-point specifier an integer, a float or NaN.
- OSC arguments are modelled as integers and floats only; other argument kinds are left out. In the code they behave as follows:
  - A boolean is a Python `int`: it multiplies and formats like 1 or 0, and raises nothing.
  - A string or blob in a timestamp position raises `TypeError` where it is multiplied (lines 158, 160, 175, 177, 192, 194). Line 154, 171 or 188 has already stored it as the latest sender time, so every later `log_message` raises at line 246.
  - A string in the id or a data position passes the callback. The writer's `{:d}` or `{:.Nf}` then raises at line 232, which ends the recorder thread.
- The dispatcher (lines 111-113) is modelled as "the address is one of the enabled ones". pythonosc's address pattern matching and its handling of duplicate mappings are left out.
- An exception in the callback is dropped by the server, and the state stays as it was when the exception was raised. The server's own error report is left out.
- Log file I/O is left out. The file is opened in append mode (line 106), so earlier contents stay and are not modelled: the model's file starts at the header line. `flush`, `close` of the file, and write errors such as a full disk are left out.
- Status and debug printing (`_pr`, lines 125-128 and 211-213) are left out. The debug line formats `s[6]` and `s[7:14]` and could itself raise, but debug mode is off by default.
- `_hand_euler_ix` at line 103 is left out: it is overwritten at line 199 before any use.
- `close` (lines 296-309) is modelled as "drain the queue, then stop the thread". In the code, `empty()` at line 305 can be true while rows sit in the feeder thread's buffer, or after the thread has taken the last row but before it has written it. `close` then stops the thread and closes the file (lines 307-308) with those rows unwritten, or the thread's last write fails on the closed file. `Session.CloseWritesLedger` and `Session.SessionFile` hold for the sequential model only.
- `qsize()` at line 303 raises `NotImplementedError` on macOS, where `close` therefore fails before waiting; the status message it guards is left out. `_oscserver` still being `None` at shutdown is also left out.
- The command line's other options and `__main__`'s timed recording loop (lines 315-332 and 345-365) are left out. They only pass values to the constructor or call `close`.
- Five behaviours of the code that a caller may not expect, all modelled as the code has them:
  - A packet of a known class with an unrecognised argument count is not dropped. It is enqueued with its metadata and NaN data.
  - `close` after a `log_message` that follows an earlier `close` waits forever instead of being a no-op. This is shown by `Session.CloseReturns`.
  - A row the format string rejects ends the recorder thread. `threading` prints the traceback, but the error does not reach `close`'s caller, and the rows after it are never written. The printed traceback is left out.
  - The epoch is latched from argument 1 even for hand packets. This is the second finding below.
  - A packet that arrives while recording is off still latches the epoch, but the latest sender time keeps its placeholder -1.0 (line 50). That happens with `auto_record` off, or between the server starting (line 118) and `start_recording` (line 122). A message logged next then carries sender time -1000 ms and a relative sender time measured from -1.0, not NaN. This is shown by `Receiver.MessageAfterUnrecorded`.
- Text.Strip: states only that the result is no longer than the input and neither starts nor ends with the character. That it is a contiguous substring of the input is stated by `StripLeading` and `StripTrailing`.
- Decoder.Meta: the contract states only that the name cell is a string. That it is the address stripped of slashes is stated by `Decoder.MetaName`.
- Writer.Line: the separator is joined into the format string before `format` runs (line 232), so a separator containing `{` or `}` is parsed as format syntax and can raise or change the line. The model treats the separator as plain text.
- Layout.Formats: the precision is a `nat`. A negative `--precision` (line 330 accepts any integer) gives the specifier `{:.-1f}`, on which the writer raises; that case is left out.

## Findings

| source | as written | input that shows it | evidently intended | confidence | as-written member | corrected member |
|---|---|---|---|---|---|---|
| openvr_osc_receiver.py:199-205 | the hand joint block is written at cell 38 (`range(38, 206, 7)`, `s[38:206]`), whatever columns precede it | devices `['/Hand_L']`: the header has 182 columns and `thumb0_posX` is column 14. A 176-argument `/Hand_L` packet gives a 206-cell row with NaN in cell 14 and the joint values 24 columns to the right of their headers | the block starts right after the base and controller columns, `HandBase`, as the header at lines 62-99 lays them out | high, not executed | Findings.HandBlockMisplaced | Findings.QuatHandColumns |
| openvr_osc_receiver.py:148 | the epoch's sender stamp is `osc_args[1]` for every address, but a hand packet's timestamp is `osc_args[0]` (line 188) and its `osc_args[1]` is posX | the first packet is `/Hand_L` with 176 arguments, timestamp 10.0 and every other argument 0.5, received at 2.0 s: the epoch's sender stamp is 0.5 (posX), so the sample's `rtime_ovr` is 9500 ms instead of 0 | the epoch takes the sender time of whatever packet latches it, so the first sample is at relative time 0 | high, not executed | Findings.HandEpochAsWritten | Findings.FirstSampleAtZero |

=== FILE: cells.dfy ===
/** Cells of an output row, the numeric OSC arguments they are copied from, and Python's
    list slicing (`xs[a:b]` and `s[i:j] = t`), which the row builders are written in. */
module Cells {

  datatype Option<+T> = None | Some(value: T)

  /** A numeric OSC argument: an integer (device ids) or a float (everything else). */
  datatype Arg = IntArg(i: int) | FloatArg(x: real)

  /** One cell of a row: the strings, integers, floats and NaNs a row list holds. */
  datatype Cell = Str(s: string) | Int(i: int) | Num(x: real) | NaN

  type Row = seq<Cell>

  function Min(a: int, b: int): int { if a <= b then a else b }

  function Max(a: int, b: int): int { if a <= b then b else a }

  /** The number an argument denotes in arithmetic; Python promotes an int to float. */
  function Value(a: Arg): real
  {
    match a
    case IntArg(i) => i as real
    case FloatArg(x) => x
  }

  /** The cell an argument becomes when it is copied into a row unchanged. */
  function ArgCell(a: Arg): Cell
  {
    match a
    case IntArg(i) => Int(i)
    case FloatArg(x) => Num(x)
  }

  /** A cell a fixed-point format specifier accepts: an integer, a float or NaN. */
  predicate Numeric(c: Cell)
  {
    c.Int? || c.Num? || c.NaN?
  }

  /** Every cell from position `n` on is numeric. */
  predicate NumericFrom(r: Row, n: nat)
  {
    forall k :: n <= k < |r| ==> Numeric(r[k])
  }

  function ArgCells(args: seq<Arg>): (r: Row)
    ensures |r| == |args|
    ensures forall k :: 0 <= k < |r| ==> r[k] == ArgCell(args[k])
    ensures NumericFrom(r, 0)
  {
    seq(|args|, k requires 0 <= k < |args| => ArgCell(args[k]))
  }

  /** Python's `xs[a:b]` for non-negative bounds: both ends are clamped to the length. */
  function Slice<T>(xs: seq<T>, a: nat, b: nat): (r: seq<T>)
    ensures a <= b <= |xs| ==> |r| == b - a && forall k {:trigger r[k]} :: 0 <= k < |r| ==> r[k] == xs[a + k]
    ensures b <= a || |xs| <= a ==> r == []
    ensures |r| == Max(0, Min(b, |xs|) - a) && forall k {:trigger r[k]} :: 0 <= k < |r| ==> r[k] == xs[a + k]
  {
    var lo := Min(a, |xs|);
    var hi := Max(lo, Min(b, |xs|));
    xs[lo..hi]
  }

  /** Concatenation is associative. */
  lemma AppendAssoc<T>(x: seq<T>, y: seq<T>, z: seq<T>)
    ensures (x + y) + z == x + (y + z)
  {
  }

  /** Python's slice assignment `s[i:j] = t` for non-negative bounds. When the slice lies
      inside `s` and `t` has its length, cells are replaced in place; otherwise the list
      grows or shrinks, which is how an offset past the end of a row lengthens the row.
      A start past the end clamps to the length, so `t` is appended. */
  function Splice<T>(s: seq<T>, i: nat, j: nat, t: seq<T>): (r: seq<T>)
    ensures i <= j <= |s| && |t| == j - i ==>
              |r| == |s| && forall k {:trigger r[k]} :: 0 <= k < |s| ==> r[k] == if i <= k < j then t[k - i] else s[k]
    ensures |r| >= Min(i, |s|) && forall k {:trigger r[k]} :: 0 <= k < Min(i, |s|) ==> r[k] == s[k]
    ensures i <= |s| <= j ==> |r| == i + |t|
    ensures |s| <= i ==> r == s + t
    ensures |t| >= j - i ==> |r| >= |s|
  {
    var lo := Min(i, |s|);
    var hi := Max(lo, Min(j, |s|));
    s[..lo] + t + s[hi..]
  }

  /** Splicing numeric cells into a row at or beyond position `n` keeps the row numeric
      from `n` on, however the slice bounds clamp. */
  lemma SpliceNumeric(s: Row, i: nat, j: nat, t: Row, n: nat)
    requires n <= i && n <= |s| && NumericFrom(s, n) && NumericFrom(t, 0)
    ensures NumericFrom(Splice(s, i, j, t), n)
  {
    var lo := Min(i, |s|);
    var hi := Max(lo, Min(j, |s|));
    var r := Splice(s, i, j, t);
    assert r == s[..lo] + t + s[hi..];
    forall k | n <= k < |r| ensures Numeric(r[k]) {
      if k < lo {
        assert r[k] == s[k];
      } else if k < lo + |t| {
        assert r[k] == t[k - lo];
      } else {
        assert r[k] == s[hi + k - lo - |t|];
      }
    }
  }

  function NaNs(n: nat): (r: Row)
    ensures |r| == n
    ensures forall k :: 0 <= k < n ==> r[k] == NaN
  {
    seq(n, _ => NaN)
  }

  /** The list every row starts from: `['', '', -1] + [nan] * (width - 3)`. */
  function Blank(width: nat): (r: Row)
    ensures |r| == Max(3, width)
    ensures r[0] == Str("") && r[1] == Str("") && r[2] == Int(-1)
    ensures forall k :: 3 <= k < |r| ==> r[k] == NaN
  {
    [Str(""), Str(""), Int(-1)] + NaNs(if width >= 3 then width - 3 else 0)
  }
}

=== FILE: cli.dfy ===
/** The command line's address check: every address given with `-a` must be one of the seven
    supported ones, otherwise the program reports the first offender and exits; without
    `-a` the default four addresses are logged. */
module Cli {
  import opened Cells
  import opened Layout
  import opened Decoder

  datatype Selection = Devices(devices: seq<string>) | Unsupported(address: string)

  /** The position of the first address that is not supported, if any. */
  function FirstUnsupported(requested: seq<string>): (r: Option<nat>)
    ensures r.None? <==> forall i :: 0 <= i < |requested| ==> requested[i] in SupportedAddresses
    ensures r.Some? ==> r.value < |requested| && requested[r.value] !in SupportedAddresses
                        && forall i :: 0 <= i < r.value ==> requested[i] in SupportedAddresses
    decreases |requested|
  {
    if requested == [] then None
    else if requested[0] !in SupportedAddresses then Some(0)
    else match FirstUnsupported(requested[1..])
      case None => None
      case Some(k) => Some(k + 1)
  }

  /** The addresses the receiver is constructed with, or the address the error names. */
  function SelectDevices(requested: Option<seq<string>>): (sel: Selection)
    ensures requested.None? ==> sel == Devices(DefaultDevices)
    ensures requested.Some? ==>
              (sel.Devices? <==> forall a :: a in requested.value ==> a in SupportedAddresses)
    ensures requested.Some? && sel.Devices? ==> sel.devices == requested.value
    ensures sel.Unsupported? ==>
              requested.Some? && sel.address in requested.value && sel.address !in SupportedAddresses
  {
    match requested
    case None => Devices(DefaultDevices)
    case Some(addrs) =>
      match FirstUnsupported(addrs)
      case None => Devices(addrs)
      case Some(k) => Unsupported(addrs[k])
  }

  /** The address reported is the first unsupported one in command-line order. */
  lemma ReportsFirst(requested: seq<string>)
    requires SelectDevices(Some(requested)).Unsupported?
    ensures exists k :: 0 <= k < |requested| && requested[k] == SelectDevices(Some(requested)).address
              && forall i :: 0 <= i < k ==> requested[i] in SupportedAddresses
  {
    var k := FirstUnsupported(requested).value;
    assert requested[k] == SelectDevices(Some(requested)).address;
  }

  /** Every address the command line lets through belongs to one of the three device
      classes, so every packet the receiver is given builds a head, controller or hand row. */
  lemma SelectedHaveClass(requested: Option<seq<string>>)
    requires SelectDevices(requested).Devices?
    ensures forall a :: a in SelectDevices(requested).devices ==> ClassOf(a) != OtherClass
  {
    forall a | a in SelectDevices(requested).devices ensures ClassOf(a) != OtherClass {
      assert a in SupportedAddresses;
      assert a in HeadAddresses || a in ControllerAddresses || a in HandAddresses;
    }
  }
}

=== FILE: decoder.dfy ===
/** The row builders of the packet callback: given an address, its argument tuple, the
    receive time and the reference epoch, the cells a sample row holds. Every builder starts
    from the blank row and copies argument slices into it with Python slice assignment. */
module Decoder {
  import opened Cells
  import opened Text
  import opened Layout

  /** The session's reference epoch: sender clock and receiver clock of the first packet,
      in seconds. */
  datatype Epoch = Epoch(stamp: real, time: real)

  /** Head-class addresses carry 8 or 9 arguments, controller-class 32 or 33, hands 151 or
      176; any other enabled address matches no branch. */
  datatype DeviceClass = HeadClass | ControllerClass | HandClass | OtherClass

  function ClassOf(addr: string): (k: DeviceClass)
    ensures k == HeadClass <==> addr in HeadAddresses
    ensures k == ControllerClass <==> addr in ControllerAddresses
    ensures k == HandClass <==> addr in HandAddresses
  {
    if addr in HeadAddresses then HeadClass
    else if addr in ControllerAddresses then ControllerClass
    else if addr in HandAddresses then HandClass
    else OtherClass
  }

  /** The argument positions a branch reads unconditionally exist: id and timestamp for
      head and controller classes, the timestamp for hands. */
  predicate ArgsSuffice(addr: string, args: seq<Arg>)
  {
    match ClassOf(addr)
    case HeadClass => |args| >= 2
    case ControllerClass => |args| >= 2
    case HandClass => |args| >= 1
    case OtherClass => true
  }

  /** Cells 0..6 of a sample: device name, empty message, device id, then sender time,
      receiver time and both times relative to the epoch, all in milliseconds. */
  function Meta(addr: string, id: Cell, stamp: real, recv: real, ep: Epoch): (m: Row)
    ensures |m| == 7 && m[0].Str? && m[1] == Str("") && m[2] == id
    ensures m[3] == Num(stamp * 1000.0) && m[4] == Num(recv * 1000.0)
    ensures m[5] == Num((stamp - ep.stamp) * 1000.0) && m[6] == Num((recv - ep.time) * 1000.0)
  {
    [Str(Strip(addr, '/')), Str(""), id, Num(stamp * 1000.0), Num(recv * 1000.0),
     Num((stamp - ep.stamp) * 1000.0), Num((recv - ep.time) * 1000.0)]
  }

  /** The device cell is the address without its slashes, as `address.strip('/')` gives it. */
  lemma MetaName(addr: string, id: Cell, stamp: real, recv: real, ep: Epoch)
    ensures Meta(addr, id, stamp, recv, ep)[0] == Str(Strip(addr, '/'))
  {
  }

  /** The first seven cells of `r` are the metadata `m`. */
  predicate HasMeta(r: Row, m: Row)
  {
    && |r| >= 7 && |m| == 7
    && r[0] == m[0] && r[1] == m[1] && r[2] == m[2] && r[3] == m[3]
    && r[4] == m[4] && r[5] == m[5] && r[6] == m[6]
  }

  /** `row[i:j] = args[a:b]`. */
  function Fill(row: Row, i: nat, j: nat, args: seq<Arg>, a: nat, b: nat): (r: Row)
    ensures i <= j <= |row| && a <= b <= |args| && j - i == b - a ==>
              |r| == |row| && forall k {:trigger r[k]} :: 0 <= k < |row| ==> r[k] == if i <= k < j then ArgCell(args[a + k - i]) else row[k]
    ensures |r| >= Min(i, |row|) && forall k {:trigger r[k]} :: 0 <= k < Min(i, |row|) ==> r[k] == row[k]
    ensures a <= b <= |args| && i <= j && j - i == b - a ==> |r| >= |row|
  {
    Splice(row, i, j, ArgCells(Slice(args, a, b)))
  }

  /** `/HMD`, `/TrackingReference`, `/DisplayRedirect`: position and rotation follow the id
      and timestamp; 8 arguments carry Euler angles (rotW stays as it was), 9 a quaternion. */
  function HeadRow(row: Row, addr: string, args: seq<Arg>, recv: real, ep: Epoch): (r: Row)
    requires |row| >= 14 && |args| >= 2
    ensures |r| == |row|
    ensures HasMeta(r, Meta(addr, ArgCell(args[0]), Value(args[1]), recv, ep))
    ensures |args| == 8 ==> (forall i :: 7 <= i < 13 ==> r[i] == ArgCell(args[i - 5])) && r[13] == row[13]
    ensures |args| == 9 ==> forall i :: 7 <= i < 14 ==> r[i] == ArgCell(args[i - 5])
    ensures |args| != 8 && |args| != 9 ==> forall i :: 7 <= i < 14 ==> r[i] == row[i]
    ensures forall i :: 14 <= i < |r| ==> r[i] == row[i]
  {
    var m := Splice(row, 0, 7, Meta(addr, ArgCell(args[0]), Value(args[1]), recv, ep));
    if |args| == 8 then Fill(m, 7, 13, args, 2, 8)
    else if |args| == 9 then Fill(m, 7, 14, args, 2, 9)
    else m
  }

  /** `/Controller`, `/GenericTracker`: as a head-class packet, followed by 24 button and axis
      values, which start at argument 8 (Euler) or 9 (quaternion). */
  function ControllerRow(row: Row, addr: string, args: seq<Arg>, recv: real, ep: Epoch): (r: Row)
    requires |row| >= 38 && |args| >= 2
    ensures |r| == |row|
    ensures HasMeta(r, Meta(addr, ArgCell(args[0]), Value(args[1]), recv, ep))
    ensures |args| == 32 ==>
              && (forall i :: 7 <= i < 13 ==> r[i] == ArgCell(args[i - 5]))
              && r[13] == row[13]
              && (forall i :: 14 <= i < 38 ==> r[i] == ArgCell(args[i - 6]))
    ensures |args| == 33 ==>
              && (forall i :: 7 <= i < 14 ==> r[i] == ArgCell(args[i - 5]))
              && (forall i :: 14 <= i < 38 ==> r[i] == ArgCell(args[i - 5]))
    ensures |args| != 32 && |args| != 33 ==> forall i :: 7 <= i < 38 ==> r[i] == row[i]
    ensures forall i :: 38 <= i < |r| ==> r[i] == row[i]
  {
    var m := Splice(row, 0, 7, Meta(addr, ArgCell(args[0]), Value(args[1]), recv, ep));
    if |args| == 32 then Fill(Fill(m, 7, 13, args, 2, 8), 14, 38, args, 8, 33)
    else if |args| == 33 then Fill(Fill(m, 7, 14, args, 2, 9), 14, 38, args, 9, 34)
    else m
  }

  /** Field `f` of joint `k` in a hand block starting at cell `base`. */
  function JointCell(r: Row, base: nat, k: nat, f: nat): Cell
    requires base + 7 * k + f < |r|
  {
    r[base + 7 * k + f]
  }

  /** The Euler hand loop after its first `n` iterations: iteration `k` copies the six
      arguments from `7 + 6 * k` into cells `base + 7 * k` .. `base + 7 * k + 5`, skipping
      joint `k`'s rotW cell. */
  function EulerJoints(row: Row, base: nat, args: seq<Arg>, n: nat): (r: Row)
    requires n <= 24
    ensures |r| >= Min(base, |row|) && forall i {:trigger r[i]} :: 0 <= i < Min(base, |row|) ==> r[i] == row[i]
    ensures |args| == 151 ==> |r| >= |row| && (|row| >= base + 168 ==> |r| == |row|)
    decreases n
  {
    if n == 0 then row
    else
      var k := n - 1;
      Fill(EulerJoints(row, base, args, k), base + 7 * k, base + 7 * k + 6, args, 7 + 6 * k, 13 + 6 * k)
  }

  /** On a row that holds the whole block, the first `n` iterations leave every cell before
      the block and from joint `n` on alone ... */
  lemma {:induction false} EulerJointsOutside(row: Row, base: nat, args: seq<Arg>, n: nat)
    requires n <= 24 && |row| >= base + 168 && |args| == 151
    ensures var r := EulerJoints(row, base, args, n);
            && |r| == |row|
            && forall i {:trigger r[i]} :: 0 <= i < |row| && (i < base || base + 7 * n <= i) ==> r[i] == row[i]
    decreases n
  {
    if n > 0 {
      EulerJointsOutside(row, base, args, n - 1);
    }
  }

  /** Joint `j` of the block at `base` holds, in its first six cells, the six arguments
      from `7 + 6 * j`. */
  predicate EulerJointSet(r: Row, base: nat, args: seq<Arg>, j: nat)
  {
    var c := base + 7 * j;
    var a := 7 + 6 * j;
    && c + 6 <= |r| && a + 6 <= |args|
    && r[c] == ArgCell(args[a]) && r[c + 1] == ArgCell(args[a + 1]) && r[c + 2] == ArgCell(args[a + 2])
    && r[c + 3] == ArgCell(args[a + 3]) && r[c + 4] == ArgCell(args[a + 4]) && r[c + 5] == ArgCell(args[a + 5])
  }

  /** Joint `j` of the block at `base` holds, in its seven cells, the seven arguments from
      `8 + 7 * j`. */
  predicate QuatJointSet(r: Row, base: nat, args: seq<Arg>, j: nat)
  {
    var c := base + 7 * j;
    var a := 8 + 7 * j;
    && c + 7 <= |r| && a + 7 <= |args|
    && r[c] == ArgCell(args[a]) && r[c + 1] == ArgCell(args[a + 1]) && r[c + 2] == ArgCell(args[a + 2])
    && r[c + 3] == ArgCell(args[a + 3]) && r[c + 4] == ArgCell(args[a + 4]) && r[c + 5] == ArgCell(args[a + 5])
    && r[c + 6] == ArgCell(args[a + 6])
  }

  /** One more iteration of the joint loop writes joint `k`'s six values and keeps the
      joints before it ... */
  lemma EulerJointStep(row: Row, base: nat, args: seq<Arg>, k: nat)
    requires k < 24 && |row| >= base + 168 && |args| == 151
    requires var prev := EulerJoints(row, base, args, k);
             |prev| == |row| && forall j :: 0 <= j < k ==> EulerJointSet(prev, base, args, j)
    ensures var r := EulerJoints(row, base, args, k + 1);
            |r| == |row| && forall j :: 0 <= j <= k ==> EulerJointSet(r, base, args, j)
  {
    FillJoint(EulerJoints(row, base, args, k), base, args, k);
  }

  /** Writing joint `k` into a row whose earlier joints are written keeps them and adds it. */
  lemma FillJoint(prev: Row, base: nat, args: seq<Arg>, k: nat)
    requires k < 24 && |prev| >= base + 168 && |args| == 151
    requires forall j :: 0 <= j < k ==> EulerJointSet(prev, base, args, j)
    ensures var r := Fill(prev, base + 7 * k, base + 7 * k + 6, args, 7 + 6 * k, 13 + 6 * k);
            |r| == |prev| && forall j :: 0 <= j <= k ==> EulerJointSet(r, base, args, j)
  {
    var r := Fill(prev, base + 7 * k, base + 7 * k + 6, args, 7 + 6 * k, 13 + 6 * k);
    forall j | 0 <= j <= k ensures EulerJointSet(r, base, args, j) {
      if j < k {
        FillKeepsJoint(prev, base, args, k, j);
      } else {
        FillSetsJoint(prev, base, args, k);
      }
    }
  }

  /** Writing joint `k` keeps an earlier joint's values. */
  lemma FillKeepsJoint(prev: Row, base: nat, args: seq<Arg>, k: nat, j: nat)
    requires j < k < 24 && |prev| >= base + 168 && |args| == 151 && EulerJointSet(prev, base, args, j)
    ensures EulerJointSet(Fill(prev, base + 7 * k, base + 7 * k + 6, args, 7 + 6 * k, 13 + 6 * k), base, args, j)
  {
    var r := Fill(prev, base + 7 * k, base + 7 * k + 6, args, 7 + 6 * k, 13 + 6 * k);
    var c := base + 7 * j;
    assert r[c] == prev[c] && r[c + 1] == prev[c + 1] && r[c + 2] == prev[c + 2];
    assert r[c + 3] == prev[c + 3] && r[c + 4] == prev[c + 4] && r[c + 5] == prev[c + 5];
  }

  /** Writing joint `k` puts its six values in place. */
  lemma FillSetsJoint(prev: Row, base: nat, args: seq<Arg>, k: nat)
    requires k < 24 && |prev| >= base + 168 && |args| == 151
    ensures EulerJointSet(Fill(prev, base + 7 * k, base + 7 * k + 6, args, 7 + 6 * k, 13 + 6 * k), base, args, k)
  {
    var r := Fill(prev, base + 7 * k, base + 7 * k + 6, args, 7 + 6 * k, 13 + 6 * k);
    var c := base + 7 * k;
    assert r[c] == ArgCell(args[7 + 6 * k]) && r[c + 1] == ArgCell(args[8 + 6 * k]) && r[c + 2] == ArgCell(args[9 + 6 * k]);
    assert r[c + 3] == ArgCell(args[10 + 6 * k]) && r[c + 4] == ArgCell(args[11 + 6 * k]) && r[c + 5] == ArgCell(args[12 + 6 * k]);
  }

  /** ... so the first `n` iterations write the values of joints 0 .. n - 1 ... */
  lemma {:induction false} EulerJointsValues(row: Row, base: nat, args: seq<Arg>, n: nat)
    requires n <= 24 && |row| >= base + 168 && |args| == 151
    ensures var r := EulerJoints(row, base, args, n);
            |r| == |row| && forall j :: 0 <= j < n ==> EulerJointSet(r, base, args, j)
    decreases n
  {
    if n > 0 {
      EulerJointsValues(row, base, args, n - 1);
      EulerJointStep(row, base, args, n - 1);
    }
  }

  /** ... and keep each joint's rotW cell. */
  lemma {:induction false} EulerJointsRotW(row: Row, base: nat, args: seq<Arg>, n: nat)
    requires n <= 24 && |row| >= base + 168 && |args| == 151
    ensures var r := EulerJoints(row, base, args, n);
            && |r| == |row|
            && forall j :: 0 <= j < 24 ==> JointCell(r, base, j, 6) == JointCell(row, base, j, 6)
    decreases n
  {
    if n > 0 {
      EulerJointsRotW(row, base, args, n - 1);
    }
  }

  /** Cells 0..13 of a hand sample: the metadata (no id, so cell 2 keeps -1; the timestamp
      is argument 0), then the hand's own position and orientation, arguments 1..6 as Euler
      angles with 151 arguments (the hand's rotW cell keeps its value) or arguments 1..7 as
      a quaternion with 176. */
  function HandPose(row: Row, addr: string, args: seq<Arg>, recv: real, ep: Epoch): (p: Row)
    requires |row| >= 14 && |args| >= 1
    ensures |p| == |row|
    ensures HasMeta(p, Meta(addr, Int(-1), Value(args[0]), recv, ep))
    ensures |args| == 151 ==> (forall i :: 7 <= i < 13 ==> p[i] == ArgCell(args[i - 6])) && p[13] == row[13]
    ensures |args| == 176 ==> forall i :: 7 <= i < 14 ==> p[i] == ArgCell(args[i - 6])
    ensures |args| != 151 && |args| != 176 ==> forall i :: 7 <= i < 14 ==> p[i] == row[i]
    ensures forall i :: 14 <= i < |p| ==> p[i] == row[i]
  {
    var m := Splice(row, 0, 7, Meta(addr, Int(-1), Value(args[0]), recv, ep));
    if |args| == 151 then Fill(m, 7, 13, args, 1, 7)
    else if |args| == 176 then Fill(m, 7, 14, args, 1, 8)
    else m
  }

  /** The hand's joint block at `base`: with 151 arguments the joint loop, with 176 one
      slice assignment of the 168 joint values from argument 8 on; cells before `base` are
      never touched. */
  function HandJoints(p: Row, base: nat, args: seq<Arg>): (r: Row)
    ensures |r| >= Min(base, |p|) && forall i {:trigger r[i]} :: 0 <= i < Min(base, |p|) ==> r[i] == p[i]
    ensures |r| >= |p| && (|p| >= base + 168 ==> |r| == |p|)
  {
    if |args| == 151 then EulerJoints(p, base, args, 24)
    else if |args| == 176 then Fill(p, base, base + 168, args, 8, 177)
    else p
  }

  /** `/Hand_L`, `/Hand_R`: the pose cells, then the joint block, which starts at cell
      `base`. */
  function HandRow(row: Row, base: nat, addr: string, args: seq<Arg>, recv: real, ep: Epoch): (r: Row)
    requires |row| >= 14 && base >= 14 && |args| >= 1
    ensures |r| >= |row|
    ensures HasMeta(r, Meta(addr, Int(-1), Value(args[0]), recv, ep))
    ensures |args| == 151 ==> (forall i :: 7 <= i < 13 ==> r[i] == ArgCell(args[i - 6])) && r[13] == row[13]
    ensures |args| == 176 ==> forall i :: 7 <= i < 14 ==> r[i] == ArgCell(args[i - 6])
    ensures |args| != 151 && |args| != 176 ==> |r| == |row| && forall i :: 7 <= i < |r| ==> r[i] == row[i]
    ensures |row| >= base + 168 ==> |r| == |row|
  {
    HandJoints(HandPose(row, addr, args, recv, ep), base, args)
  }

  /** Euler hand packet: joint `k` holds arguments `7 + 6k` .. `12 + 6k` in its first six
      cells ... */
  lemma HandEulerJoints(row: Row, base: nat, addr: string, args: seq<Arg>, recv: real, ep: Epoch)
    requires |row| >= base + 168 && base >= 14 && |args| == 151
    ensures var r := HandRow(row, base, addr, args, recv, ep);
      forall k :: 0 <= k < 24 ==> EulerJointSet(r, base, args, k)
  {
    var p := HandPose(row, addr, args, recv, ep);
    assert HandRow(row, base, addr, args, recv, ep) == EulerJoints(p, base, args, 24);
    EulerJointsValues(p, base, args, 24);
  }

  /** ... and its rotW cell keeps the value it had in the row the packet started from. */
  lemma HandEulerRotW(row: Row, base: nat, addr: string, args: seq<Arg>, recv: real, ep: Epoch)
    requires |row| >= base + 168 && base >= 14 && |args| == 151
    ensures var r := HandRow(row, base, addr, args, recv, ep);
      forall k :: 0 <= k < 24 ==> JointCell(r, base, k, 6) == JointCell(row, base, k, 6)
  {
    var p := HandPose(row, addr, args, recv, ep);
    assert HandRow(row, base, addr, args, recv, ep) == EulerJoints(p, base, args, 24);
    EulerJointsRotW(p, base, args, 24);
  }

  /** Quaternion hand packet: joint `k` holds arguments `8 + 7k` .. `14 + 7k`, so the 168
      cells from `base` hold arguments 8 .. 175 in order. */
  lemma HandQuatJoints(row: Row, base: nat, addr: string, args: seq<Arg>, recv: real, ep: Epoch)
    requires |row| >= base + 168 && base >= 14 && |args| == 176
    ensures var r := HandRow(row, base, addr, args, recv, ep);
      forall k :: 0 <= k < 24 ==> QuatJointSet(r, base, args, k)
  {
    var p := HandPose(row, addr, args, recv, ep);
    var r := Fill(p, base, base + 168, args, 8, 177);
    assert r == HandRow(row, base, addr, args, recv, ep);
    forall k | 0 <= k < 24 ensures QuatJointSet(r, base, args, k) {
      assert base + 7 * k + 7 <= base + 168;
    }
  }

  /** A hand packet leaves every cell outside 0..13 and the hand block as it was. */
  lemma HandRowOutsideBlock(row: Row, base: nat, addr: string, args: seq<Arg>, recv: real, ep: Epoch)
    requires |row| >= base + 168 && base >= 14 && |args| >= 1
    ensures var r := HandRow(row, base, addr, args, recv, ep);
      forall i :: 14 <= i < |r| && (i < base || base + 168 <= i) ==> r[i] == row[i]
  {
    var p := HandPose(row, addr, args, recv, ep);
    var r := HandJoints(p, base, args);
    assert r == HandRow(row, base, addr, args, recv, ep);
    if |args| == 151 {
      EulerJointsOutside(p, base, args, 24);
    }
    forall i | 14 <= i < |r| && (i < base || base + 168 <= i) ensures r[i] == row[i] {
      assert r[i] == p[i];
    }
  }

  /** The argument that carries a packet's sender timestamp: 0 for hands, 1 otherwise. */
  function TimeIndex(addr: string): nat
  {
    if ClassOf(addr) == HandClass then 0 else 1
  }

  /** The device-id cell of a sample: argument 0, except for hands, which have none. */
  function IdCell(addr: string, args: seq<Arg>): Cell
    requires |args| >= 1
  {
    if ClassOf(addr) == HandClass then Int(-1) else ArgCell(args[0])
  }

  /** The row the callback enqueues for a packet: the blank row of the layout's width with
      the matching branch applied; an enabled address of no known class stays blank. */
  function SampleRow(width: nat, base: nat, addr: string, args: seq<Arg>, recv: real, ep: Epoch): (r: Row)
    requires width >= 14 && base >= 14 && ArgsSuffice(addr, args)
    requires ClassOf(addr) == ControllerClass ==> width >= 38
    ensures |r| >= width
    ensures ClassOf(addr) != HandClass || base + 168 <= width ==> |r| == width
    ensures ClassOf(addr) == OtherClass ==> r == Blank(width)
    ensures ClassOf(addr) != OtherClass ==>
              HasMeta(r, Meta(addr, IdCell(addr, args), Value(args[TimeIndex(addr)]), recv, ep))
  {
    var blank := Blank(width);
    match ClassOf(addr)
    case HeadClass => HeadRow(blank, addr, args, recv, ep)
    case ControllerClass => ControllerRow(blank, addr, args, recv, ep)
    case HandClass => HandRow(blank, base, addr, args, recv, ep)
    case OtherClass => blank
  }

  lemma FillNumeric(row: Row, i: nat, j: nat, args: seq<Arg>, a: nat, b: nat)
    requires 3 <= i && |row| >= 3 && NumericFrom(row, 3)
    ensures NumericFrom(Fill(row, i, j, args, a, b), 3)
  {
    SpliceNumeric(row, i, j, ArgCells(Slice(args, a, b)), 3);
  }

  lemma {:induction false} EulerJointsNumeric(row: Row, base: nat, args: seq<Arg>, n: nat)
    requires n <= 24 && base >= 3 && |row| >= 3 && NumericFrom(row, 3)
    ensures NumericFrom(EulerJoints(row, base, args, n), 3)
    decreases n
  {
    if n > 0 {
      var k := n - 1;
      EulerJointsNumeric(row, base, args, k);
      FillNumeric(EulerJoints(row, base, args, k), base + 7 * k, base + 7 * k + 6, args, 7 + 6 * k, 13 + 6 * k);
    }
  }

  /** Splicing the seven metadata cells into a row keeps it numeric from cell 3 on: the
      times are floats. */
  lemma MetaNumeric(row: Row, addr: string, id: Cell, stamp: real, recv: real, ep: Epoch)
    requires |row| >= 7 && NumericFrom(row, 3)
    ensures NumericFrom(Splice(row, 0, 7, Meta(addr, id, stamp, recv, ep)), 3)
  {
  }

  lemma HeadNumeric(row: Row, addr: string, args: seq<Arg>, recv: real, ep: Epoch)
    requires |row| >= 14 && |args| >= 2 && NumericFrom(row, 3)
    ensures NumericFrom(HeadRow(row, addr, args, recv, ep), 3)
  {
    var m := Splice(row, 0, 7, Meta(addr, ArgCell(args[0]), Value(args[1]), recv, ep));
    MetaNumeric(row, addr, ArgCell(args[0]), Value(args[1]), recv, ep);
    if |args| == 8 {
      FillNumeric(m, 7, 13, args, 2, 8);
    } else if |args| == 9 {
      FillNumeric(m, 7, 14, args, 2, 9);
    }
  }

  lemma ControllerNumeric(row: Row, addr: string, args: seq<Arg>, recv: real, ep: Epoch)
    requires |row| >= 38 && |args| >= 2 && NumericFrom(row, 3)
    ensures NumericFrom(ControllerRow(row, addr, args, recv, ep), 3)
  {
    var m := Splice(row, 0, 7, Meta(addr, ArgCell(args[0]), Value(args[1]), recv, ep));
    MetaNumeric(row, addr, ArgCell(args[0]), Value(args[1]), recv, ep);
    if |args| == 32 {
      FillNumeric(m, 7, 13, args, 2, 8);
      FillNumeric(Fill(m, 7, 13, args, 2, 8), 14, 38, args, 8, 33);
    } else if |args| == 33 {
      FillNumeric(m, 7, 14, args, 2, 9);
      FillNumeric(Fill(m, 7, 14, args, 2, 9), 14, 38, args, 9, 34);
    }
  }

  lemma HandNumeric(row: Row, base: nat, addr: string, args: seq<Arg>, recv: real, ep: Epoch)
    requires |row| >= 14 && base >= 14 && |args| >= 1 && NumericFrom(row, 3)
    ensures NumericFrom(HandRow(row, base, addr, args, recv, ep), 3)
  {
    var m := Splice(row, 0, 7, Meta(addr, Int(-1), Value(args[0]), recv, ep));
    var p := HandPose(row, addr, args, recv, ep);
    MetaNumeric(row, addr, Int(-1), Value(args[0]), recv, ep);
    if |args| == 151 {
      FillNumeric(m, 7, 13, args, 1, 7);
      EulerJointsNumeric(p, base, args, 24);
    } else if |args| == 176 {
      FillNumeric(m, 7, 14, args, 1, 8);
      FillNumeric(p, base, base + 168, args, 8, 177);
    }
    assert HandRow(row, base, addr, args, recv, ep) == HandJoints(p, base, args);
  }

  /** Every cell of a sample from position 3 on is an integer, a float or NaN. */
  lemma SampleNumeric(width: nat, base: nat, addr: string, args: seq<Arg>, recv: real, ep: Epoch)
    requires width >= 14 && base >= 14 && ArgsSuffice(addr, args)
    requires ClassOf(addr) == ControllerClass ==> width >= 38
    ensures NumericFrom(SampleRow(width, base, addr, args, recv, ep), 3)
  {
    var blank := Blank(width);
    match ClassOf(addr)
    case HeadClass => HeadNumeric(blank, addr, args, recv, ep);
    case ControllerClass => ControllerNumeric(blank, addr, args, recv, ep);
    case HandClass => HandNumeric(blank, base, addr, args, recv, ep);
    case OtherClass =>
  }

  /** A sample has the cell kinds of a log row as long as the device id, where the packet
      has one, is an integer: strings in cells 0 and 1, an integer in cell 2, numbers or NaN
      everywhere else. */
  lemma SampleShaped(width: nat, base: nat, addr: string, args: seq<Arg>, recv: real, ep: Epoch)
    requires width >= 14 && base >= 14 && ArgsSuffice(addr, args)
    requires ClassOf(addr) == ControllerClass ==> width >= 38
    requires ClassOf(addr) == HeadClass || ClassOf(addr) == ControllerClass ==> args[0].IntArg?
    ensures Shaped(SampleRow(width, base, addr, args, recv, ep))
  {
    var r := SampleRow(width, base, addr, args, recv, ep);
    SampleNumeric(width, base, addr, args, recv, ep);
    if ClassOf(addr) != OtherClass {
      var m := Meta(addr, IdCell(addr, args), Value(args[TimeIndex(addr)]), recv, ep);
      assert r[0] == m[0] && r[1] == m[1] && r[2] == m[2];
    }
  }

  /** So the format list of the layout accepts every such sample. */
  lemma SampleRenders(devices: seq<string>, precision: nat, base: nat, addr: string, args: seq<Arg>, recv: real, ep: Epoch)
    requires base >= 14 && ArgsSuffice(addr, args)
    requires ClassOf(addr) == ControllerClass ==> HasControllerBlock(devices)
    requires ClassOf(addr) == HeadClass || ClassOf(addr) == ControllerClass ==> args[0].IntArg?
    ensures Renders(Formats(devices, precision), SampleRow(|Header(devices)|, base, addr, args, recv, ep))
  {
    var width := |Header(devices)|;
    assert width == Width(Config("", devices, precision));
    SampleShaped(width, base, addr, args, recv, ep);
    ShapedRenders(devices, precision, SampleRow(width, base, addr, args, recv, ep));
  }
}

=== FILE: findings.dfy ===
/** Two places where the callback does not do what the header and the timing columns promise,
    each shown on a concrete input against the code as written, and the corrected behaviour,
    which the rest of the model uses, proved for all inputs. */
module Findings {
  import opened Cells
  import opened Layout
  import opened Decoder
  import opened Receiver

  /** A hands-only layout: 14 base columns followed directly by the 168 hand columns. */
  const HandsOnly: Config := Config("\t", ["/Hand_L"], 10)

  /** A quaternion hand packet whose argument `i` is the number `i`. */
  function Counting(n: nat): (args: seq<Arg>)
    ensures |args| == n && forall i :: 0 <= i < n ==> args[i] == FloatArg(i as real)
  {
    seq(n, i => FloatArg(i as real))
  }

  /** A quaternion hand row built on a 182-cell row with the block at 38 overruns it. */
  lemma QuatOverrun(row: Row, addr: string, args: seq<Arg>, recv: real, ep: Epoch)
    requires |row| == 182 && |args| == 176
    ensures |HandRow(row, 38, addr, args, recv, ep)| == 206
    ensures HandRow(row, 38, addr, args, recv, ep)[14] == row[14]
    ensures HandRow(row, 38, addr, args, recv, ep)[38] == ArgCell(args[8])
  {
    var m := Splice(row, 0, 7, Meta(addr, Int(-1), Value(args[0]), recv, ep));
    var p := Fill(m, 7, 14, args, 1, 8);
    assert |p| == 182 && p[14] == row[14];
    assert |ArgCells(Slice(args, 8, 177))| == 168;
  }

  /** The hands-only header: 182 columns, the first joint column at cell 14. */
  lemma HandsOnlyHeader()
    ensures Width(HandsOnly) == 182 && HandBase(HandsOnly.devices) == 14
    ensures Header(HandsOnly.devices)[14] == "thumb0_posX"
  {
    assert HasHandBlock(HandsOnly.devices) && !HasControllerBlock(HandsOnly.devices);
    HeaderHandColumns(HandsOnly.devices);
    assert Header(HandsOnly.devices)[14 .. 21] == JointColumns(0);
    assert Header(HandsOnly.devices)[14] == HandColumn(0, 0);
    FirstHandColumn();
  }

  lemma FirstHandColumn()
    ensures HandColumn(0, 0) == "thumb0_posX"
  {
    assert JointNames[0] == "thumb0" && FieldNames[0] == "posX";
    assert "thumb0" + "_" + "posX" == "thumb0_posX";
  }

  /** As written, the hand block always starts at cell 38. With hands only, the header has
      182 columns and names cell 14 `thumb0_posX`, but a quaternion hand packet leaves cell 14
      NaN and grows the row to 206 cells, so every hand value lands 24 columns to the right
      of its header: `thumb0_posX`, argument 8, is in cell 38. */
  lemma HandBlockMisplaced()
    ensures var s := Init(HandsOnly, true);
            var o := Handle(AsWritten, s, "/Hand_L", Counting(176), 0.0);
            && Width(HandsOnly) == 182
            && Header(HandsOnly.devices)[14] == "thumb0_posX"
            && o.Done? && |o.next.queue| == 1
            && |o.next.queue[0]| == 206
            && o.next.queue[0][14] == NaN
            && o.next.queue[0][38] == Num(8.0)
  {
    HandsOnlyHeader();
    var args := Counting(176);
    var s := Init(HandsOnly, true);
    assert ClassOf("/Hand_L") == HandClass && ArgsSuffice("/Hand_L", args);
    var o := Handle(AsWritten, s, "/Hand_L", args, 0.0);
    var blank := Blank(182);
    assert o.next.queue[0] == SampleRow(182, 38, "/Hand_L", args, 0.0, o.next.epoch);
    assert o.next.queue[0] == HandRow(blank, 38, "/Hand_L", args, 0.0, o.next.epoch);
    QuatOverrun(blank, "/Hand_L", args, 0.0, o.next.epoch);
    assert args[8] == FloatArg(8.0);
  }

  /** Corrected, the hand block starts right after the columns before it: a quaternion hand
      packet gives a row with exactly one cell per column, and the seven cells under joint
      `k`'s seven `<joint>_<field>` headers hold that joint's seven values from the packet. */
  lemma QuatHandColumns(config: Config, addr: string, args: seq<Arg>, recv: real, ep: Epoch)
    requires addr in HandAddresses && addr in config.devices && |args| == 176
    ensures var base := HandBase(config.devices);
            var row := SampleRow(Width(config), base, addr, args, recv, ep);
            && |row| == |Header(config.devices)|
            && forall k :: 0 <= k < 24 ==>
                 && Header(config.devices)[base + 7 * k .. base + 7 * k + 7] == JointColumns(k)
                 && QuatJointSet(row, base, args, k)
  {
    var base := HandBase(config.devices);
    var width := Width(config);
    var row := SampleRow(width, base, addr, args, recv, ep);
    assert HasHandBlock(config.devices) && base + 168 == width == |row|;
    assert row == HandRow(Blank(width), base, addr, args, recv, ep);
    HeaderHandColumns(config.devices);
    HandQuatJoints(Blank(width), base, addr, args, recv, ep);
  }

  /** Corrected, an Euler hand packet puts joint `k`'s position and angles under its six
      `posX` .. `rotZ` headers and leaves the cell under its `rotW` header NaN. */
  lemma EulerHandColumns(config: Config, addr: string, args: seq<Arg>, recv: real, ep: Epoch)
    requires addr in HandAddresses && addr in config.devices && |args| == 151
    ensures var base := HandBase(config.devices);
            var row := SampleRow(Width(config), base, addr, args, recv, ep);
            && |row| == |Header(config.devices)|
            && forall k :: 0 <= k < 24 ==>
                 && Header(config.devices)[base + 7 * k .. base + 7 * k + 7] == JointColumns(k)
                 && EulerJointSet(row, base, args, k)
                 && JointCell(row, base, k, 6) == NaN
  {
    var base := HandBase(config.devices);
    var width := Width(config);
    var blank := Blank(width);
    var row := SampleRow(width, base, addr, args, recv, ep);
    assert HasHandBlock(config.devices) && base + 168 == width == |row|;
    assert row == HandRow(blank, base, addr, args, recv, ep);
    HeaderHandColumns(config.devices);
    HandEulerJoints(blank, base, addr, args, recv, ep);
    HandEulerRotW(blank, base, addr, args, recv, ep);
    forall k | 0 <= k < 24 ensures JointCell(row, base, k, 6) == NaN {
      assert JointCell(blank, base, k, 6) == NaN;
    }
  }

  /** A quaternion hand packet with timestamp 10.0 and every other argument 0.5. */
  function HandAt10(): (args: seq<Arg>)
    ensures |args| == 176 && args[0] == FloatArg(10.0) && args[1] == FloatArg(0.5)
  {
    [FloatArg(10.0)] + seq(175, _ => FloatArg(0.5))
  }

  /** As written, the epoch's sender stamp is argument 1 even when the first packet is a hand
      packet, whose argument 1 is a position. A first quaternion hand sample with timestamp
      10.0 and position 0.5 is recorded 9500 ms after the epoch instead of at 0. */
  lemma HandEpochAsWritten()
    ensures var s := Init(HandsOnly, true);
            var o := Handle(AsWritten, s, "/Hand_L", HandAt10(), 2.0);
            && o.Done? && |o.next.queue| == 1
            && o.next.epoch == Epoch(0.5, 2.0)
            && o.next.queue[0][5] == Num(9500.0)
            && o.next.queue[0][6] == Num(0.0)
  {
    var args := HandAt10();
    var o := Handle(AsWritten, Init(HandsOnly, true), "/Hand_L", args, 2.0);
    var row := o.next.queue[0];
    assert ClassOf("/Hand_L") == HandClass;
    var m := Meta("/Hand_L", IdCell("/Hand_L", args), Value(args[0]), 2.0, Epoch(0.5, 2.0));
    assert HasMeta(row, m);
  }

  /** The first sample recorded in a session is at relative time 0 on both clocks: for
      head and controller samples as written, and for every device class once corrected. */
  lemma FirstSampleAtZero(rev: Revision, s: State, addr: string, args: seq<Arg>, recv: real)
    requires addr in s.config.devices && !s.received && s.recording && ClassOf(addr) != OtherClass
    requires rev == Corrected || ClassOf(addr) != HandClass
    requires ArgsSuffice(addr, args)
    ensures var n := Handle(rev, s, addr, args, recv).next;
            n.queue[|s.queue|][5] == Num(0.0) && n.queue[|s.queue|][6] == Num(0.0)
  {
    assert Handle(rev, s, addr, args, recv).Done?;
    FirstRecordedAtZero(rev, s, addr, args, recv);
  }

  /** The same, stated for a callback known to have returned. */
  lemma FirstRecordedAtZero(rev: Revision, s: State, addr: string, args: seq<Arg>, recv: real)
    requires addr in s.config.devices && !s.received && s.recording && ClassOf(addr) != OtherClass
    requires rev == Corrected || ClassOf(addr) != HandClass
    requires Handle(rev, s, addr, args, recv).Done?
    ensures var n := Handle(rev, s, addr, args, recv).next;
            n.queue[|s.queue|][5] == Num(0.0) && n.queue[|s.queue|][6] == Num(0.0)
  {
    RecordedStamps(rev, s, addr, args, recv);
    var n := Handle(rev, s, addr, args, recv).next;
    assert StampIndex(rev, addr) == TimeIndex(addr);
    assert n.latest == n.epoch.stamp && n.epoch.time == recv;
  }
}

=== FILE: layout.dfy ===
/** The receiver's column layout: which OSC addresses exist, the header and format lists
    the constructor builds from the enabled addresses, and the header line it writes. */
module Layout {
  import opened Cells
  import opened Text

  const HeadAddresses: seq<string> := ["/HMD", "/TrackingReference", "/DisplayRedirect"]
  const ControllerAddresses: seq<string> := ["/Controller", "/GenericTracker"]
  const HandAddresses: seq<string> := ["/Hand_L", "/Hand_R"]

  /** The seven addresses the command line accepts. */
  const SupportedAddresses: seq<string> := HeadAddresses + ControllerAddresses + HandAddresses

  /** The addresses logged when none are given. */
  const DefaultDevices: seq<string> := ["/HMD", "/Controller", "/Hand_L", "/Hand_R"]

  /** The column-format specifiers `{:s}`, `{:d}` and `{:.Nf}`. */
  datatype Spec = StrSpec | IntSpec | FixedSpec(precision: nat)

  /** The logging options: field separator, enabled addresses, decimal precision. */
  datatype Config = Config(sep: string, devices: seq<string>, precision: nat)

  predicate HasControllerBlock(devices: seq<string>)
  {
    "/Controller" in devices || "/GenericTracker" in devices
  }

  predicate HasHandBlock(devices: seq<string>)
  {
    "/Hand_L" in devices || "/Hand_R" in devices
  }

  const BaseColumns: seq<string> :=
    ["device", "message", "deviceid", "time_ovr", "time_sys", "rtime_ovr", "rtime_sys",
     "posX", "posY", "posZ", "rotX", "rotY", "rotZ", "rotW"]

  const ControllerColumns: seq<string> :=
    ["button1", "button2", "button3", "button4", "button5", "button6", "button7",
     "button8", "button9", "button10", "button11", "button12", "button13", "button14",
     "axis1X", "axis1Y", "axis2X", "axis2Y", "axis3X", "axis3Y",
     "axis4X", "axis4Y", "axis5X", "axis5Y"]

  /** The 24 hand joints, in header order. */
  const JointNames: seq<string> :=
    ["thumb0", "thumb1", "thumb2", "thumb3",
     "index0", "index1", "index2", "index3", "index4",
     "middle0", "middle1", "middle2", "middle3", "middle4",
     "ring0", "ring1", "ring2", "ring3", "ring4",
     "pinky0", "pinky1", "pinky2", "pinky3", "pinky4"]

  /** The seven fields of a joint, in header order. */
  const FieldNames: seq<string> := ["posX", "posY", "posZ", "rotX", "rotY", "rotZ", "rotW"]

  /** The header name of field `f` of joint `k`, e.g. `index2_rotW`. */
  function HandColumn(k: nat, f: nat): string
    requires k < 24 && f < 7
  {
    JointNames[k] + "_" + FieldNames[f]
  }

  /** The seven columns of joint `k`. */
  function JointColumns(k: nat): (cols: seq<string>)
    requires k < 24
    ensures |cols| == 7
    ensures forall f :: 0 <= f < 7 ==> cols[f] == HandColumn(k, f)
  {
    seq(7, f requires 0 <= f < 7 => HandColumn(k, f))
  }

  /** The columns of joints `k` .. 23, joint after joint. */
  function HandColumnsFrom(k: nat): (cols: seq<string>)
    requires k <= 24
    ensures |cols| == 7 * (24 - k)
    decreases 24 - k
  {
    if k == 24 then [] else JointColumns(k) + HandColumnsFrom(k + 1)
  }

  /** The 168 hand columns. */
  function HandColumns(): (cols: seq<string>)
    ensures |cols| == 168
  {
    HandColumnsFrom(0)
  }

  /** The columns before the hand block: the 14 base columns, then the 24 controller
      columns when a controller-class address is enabled. */
  function FrontColumns(devices: seq<string>): seq<string>
  {
    BaseColumns + (if HasControllerBlock(devices) then ControllerColumns else [])
  }

  /** The header list: the front columns, then the 168 hand columns when a hand address is
      enabled. */
  function Header(devices: seq<string>): (h: seq<string>)
    ensures |h| == 14 + (if HasControllerBlock(devices) then 24 else 0) + (if HasHandBlock(devices) then 168 else 0)
  {
    FrontColumns(devices) + (if HasHandBlock(devices) then HandColumns() else [])
  }

  function Fixed(n: nat, precision: nat): (r: seq<Spec>)
    ensures |r| == n
    ensures forall i :: 0 <= i < n ==> r[i] == FixedSpec(precision)
  {
    seq(n, _ => FixedSpec(precision))
  }

  /** The format list, one specifier per header column. */
  function Formats(devices: seq<string>, precision: nat): (f: seq<Spec>)
    ensures |f| == |Header(devices)|
  {
    [StrSpec, StrSpec, IntSpec] + Fixed(11, precision)
    + (if HasControllerBlock(devices) then Fixed(24, precision) else [])
    + (if HasHandBlock(devices) then Fixed(168, precision) else [])
  }

  /** The number of cells in every row: the length of the format list. */
  function Width(c: Config): (w: nat)
    ensures w == |Header(c.devices)|
    ensures w == 14 + (if HasControllerBlock(c.devices) then 24 else 0)
                    + (if HasHandBlock(c.devices) then 168 else 0)
  {
    |Formats(c.devices, c.precision)|
  }

  /** The cell where the hand block begins in the header: right after the base columns and,
      when present, the controller columns. */
  function HandBase(devices: seq<string>): (b: nat)
    ensures b == |FrontColumns(devices)|
    ensures HasHandBlock(devices) ==> b + 168 == |Header(devices)|
  {
    14 + (if HasControllerBlock(devices) then 24 else 0)
  }

  /** Whether `str.format` accepts a cell for a specifier: `{:s}` takes a string, `{:d}` an
      integer, a fixed-point specifier an integer, a float or NaN. Any other pairing raises
      a ValueError. */
  predicate Fits(spec: Spec, c: Cell)
  {
    match spec
    case StrSpec => c.Str?
    case IntSpec => c.Int?
    case FixedSpec(_) => Numeric(c)
  }

  /** Whether the joined format string accepts a row: one cell for every specifier (extra
      cells are ignored, too few raise an IndexError), each of a fitting kind. */
  predicate Renders(formats: seq<Spec>, row: Row)
  {
    |row| >= |formats| && forall i :: 0 <= i < |formats| ==> Fits(formats[i], row[i])
  }

  /** The cell kinds every row of the log has: two strings, an integer, then numbers. */
  predicate Shaped(row: Row)
  {
    |row| >= 3 && row[0].Str? && row[1].Str? && row[2].Int? && NumericFrom(row, 3)
  }

  /** A shaped row with a cell for every column is accepted by the layout's format list. */
  lemma ShapedRenders(devices: seq<string>, precision: nat, row: Row)
    requires Shaped(row) && |row| >= |Header(devices)|
    ensures Renders(Formats(devices, precision), row)
  {
    var formats := Formats(devices, precision);
    FormatSpecs(devices, precision);
    forall i | 0 <= i < |formats| ensures Fits(formats[i], row[i]) {
      if i >= 3 {
        assert formats[i] == FixedSpec(precision) && Numeric(row[i]);
      }
    }
  }

  /** The first line of the log: the separator-joined header plus a newline. */
  function HeaderLine(sep: string, devices: seq<string>): (line: string)
    ensures |line| >= 1 && line[|line| - 1] == '\n'
  {
    Join(sep, Header(devices)) + "\n"
  }

  /** The format list has one specifier per header column: `{:s}` for device and message,
      `{:d}` for the device id and a fixed-precision float for every other column. */
  lemma FormatSpecs(devices: seq<string>, precision: nat)
    ensures |Formats(devices, precision)| == |Header(devices)|
    ensures Formats(devices, precision)[0] == StrSpec && Formats(devices, precision)[1] == StrSpec
    ensures Formats(devices, precision)[2] == IntSpec
    ensures forall i :: 3 <= i < |Formats(devices, precision)| ==>
              Formats(devices, precision)[i] == FixedSpec(precision)
  {
    assert |Formats(devices, precision)| == Width(Config("", devices, precision));
  }

  /** The header starts with the 14 base columns, followed by the 24 button and axis
      columns when a controller-class address is enabled. */
  lemma HeaderBlocks(devices: seq<string>)
    ensures forall i :: 0 <= i < 14 ==> Header(devices)[i] == BaseColumns[i]
    ensures HasControllerBlock(devices) ==>
              forall i :: 14 <= i < 38 ==> Header(devices)[i] == ControllerColumns[i - 14]
  {
    var ctrl := if HasControllerBlock(devices) then ControllerColumns else [];
    var hands := if HasHandBlock(devices) then HandColumns() else [];
    assert Header(devices) == BaseColumns + (ctrl + hands);
  }

  /** The elements of `a + b` past `a` are those of `b`. */
  lemma SliceAfter<T>(a: seq<T>, b: seq<T>, x: nat, y: nat)
    requires x <= y <= |b|
    ensures (a + b)[|a| + x .. |a| + y] == b[x..y]
  {
  }

  /** Joint `j`'s columns sit at `7 * (j - k)` in the columns of joints `k` .. 23. */
  lemma {:induction false} HandColumnsFromJoint(k: nat, j: nat)
    requires k <= j < 24
    ensures HandColumnsFrom(k)[7 * (j - k) .. 7 * (j - k) + 7] == JointColumns(j)
    decreases j - k
  {
    if k < j {
      SliceAfter(JointColumns(k), HandColumnsFrom(k + 1), 7 * (j - k) - 7, 7 * (j - k));
      HandColumnsFromJoint(k + 1, j);
    } else {
      SliceAfter([], HandColumnsFrom(k), 0, 7);
      assert HandColumnsFrom(k)[..7] == JointColumns(k);
    }
  }

  /** The hand columns are the 24 joints' columns, joint after joint. */
  lemma HandColumnsJoint(k: nat)
    requires k < 24
    ensures HandColumns()[7 * k .. 7 * k + 7] == JointColumns(k)
  {
    HandColumnsFromJoint(0, k);
    assert 7 * (k - 0) == 7 * k;
  }

  /** When a hand address is enabled, the header ends with the 24 joints' columns, seven
      fields each, starting at `HandBase`. */
  lemma HeaderHandColumns(devices: seq<string>)
    requires HasHandBlock(devices)
    ensures forall k :: 0 <= k < 24 ==>
              HandBase(devices) + 7 * k + 7 <= |Header(devices)|
              && Header(devices)[HandBase(devices) + 7 * k .. HandBase(devices) + 7 * k + 7] == JointColumns(k)
  {
    var front := FrontColumns(devices);
    assert Header(devices) == front + HandColumns() && HandBase(devices) == |front|;
    forall k | 0 <= k < 24
      ensures Header(devices)[|front| + 7 * k .. |front| + 7 * k + 7] == JointColumns(k)
    {
      SliceAfter(front, HandColumns(), 7 * k, 7 * k + 7);
      HandColumnsJoint(k);
    }
  }

  /** With a one-character separator that no column name contains, the header line is the
      header followed by a newline, and splitting it on the separator gives the header back. */
  lemma HeaderLineColumns(devices: seq<string>, c: char)
    requires forall i :: 0 <= i < |Header(devices)| ==> c !in Header(devices)[i]
    ensures |HeaderLine([c], devices)| >= 1
    ensures HeaderLine([c], devices)[|HeaderLine([c], devices)| - 1] == '\n'
    ensures Split(HeaderLine([c], devices)[..|HeaderLine([c], devices)| - 1], c) == Header(devices)
  {
    var line := HeaderLine([c], devices);
    assert line[..|line| - 1] == Join([c], Header(devices));
    SplitJoin(Header(devices), c);
  }
}

=== FILE: receiver.dfy ===
/** The receiver's bookkeeping between packets: the recording switch, the epoch latched by
    the first packet, the latest recorded sender time and the queue of rows waiting for the
    writer. The packet callback, `log_message`, `start_recording` and `stop_recording` are
    functions from one state to the next. */
module Receiver {
  import opened Cells
  import opened Layout
  import opened Decoder

  /** `AsWritten` follows the code line by line; `Corrected` takes the epoch stamp of a
      hand packet from its timestamp argument and places the hand block right after the
      columns that precede it in the header. */
  datatype Revision = AsWritten | Corrected

  datatype State = State(
    config: Config,
    recording: bool,
    received: bool,   // a packet has arrived, so `epoch` holds its stamps
    epoch: Epoch,
    latest: real,     // sender time of the latest recorded sample, -1.0 before the first
    queue: seq<Row>)

  /** Rows have a cell for every column; with the corrected layout, exactly one. */
  predicate Valid(rev: Revision, s: State)
  {
    forall i :: 0 <= i < |s.queue| ==>
      |s.queue[i]| >= Width(s.config) && (rev == Corrected ==> |s.queue[i]| == Width(s.config))
  }

  /** The state after construction: nothing received, both epoch stamps and the latest
      sender time at -1.0, recording on when `auto_record` is set. */
  function Init(config: Config, autoRecord: bool): (s: State)
    ensures Valid(AsWritten, s) && Valid(Corrected, s)
    ensures s.recording == autoRecord && !s.received && s.queue == []
    ensures s.config == config && s.epoch == Epoch(-1.0, -1.0) && s.latest == -1.0
  {
    State(config, autoRecord, false, Epoch(-1.0, -1.0), -1.0, [])
  }

  /** The argument the epoch's sender stamp is read from. */
  function StampIndex(rev: Revision, addr: string): (k: nat)
    ensures rev == AsWritten ==> k == 1
    ensures rev == Corrected ==> k == if addr in HandAddresses then 0 else 1
  {
    if rev == Corrected then TimeIndex(addr) else 1
  }

  /** The cell the hand block starts at. */
  function HandBaseOf(rev: Revision, devices: seq<string>): (b: nat)
    ensures rev == AsWritten ==> b == 38
    ensures rev == Corrected ==> b == |FrontColumns(devices)|
    ensures rev == Corrected && HasHandBlock(devices) ==> b + 168 == |Header(devices)|
  {
    if rev == Corrected then HandBase(devices) else 38
  }

  /** The outcome of one callback: it returns, or an argument index it reads does not exist
      and it raises an IndexError, leaving the state as it was when the error occurred. */
  datatype Outcome = Done(next: State) | Raised(at: State)

  /** The packet callback for an address the dispatcher routes to it. */
  function Handle(rev: Revision, s: State, addr: string, args: seq<Arg>, recv: real): (o: Outcome)
    requires addr in s.config.devices
    ensures o.Raised? <==> (!s.received && |args| <= StampIndex(rev, addr)) || (s.recording && !ArgsSuffice(addr, args))
    ensures o.Raised? ==> o.at == s
    ensures o.Done? ==> o.next.config == s.config && o.next.recording == s.recording && o.next.received
    ensures o.Done? && s.received ==> o.next.epoch == s.epoch
    ensures o.Done? && !s.received ==> o.next.epoch == Epoch(Value(args[StampIndex(rev, addr)]), recv)
    ensures o.Done? && !s.recording ==> o.next.queue == s.queue && o.next.latest == s.latest
    ensures o.Done? && s.recording ==>
              && |o.next.queue| == |s.queue| + 1
              && o.next.queue[..|s.queue|] == s.queue
              && o.next.queue[|s.queue|] == SampleRow(Width(s.config), HandBaseOf(rev, s.config.devices), addr, args, recv, o.next.epoch)
              && o.next.latest == if ClassOf(addr) == OtherClass then s.latest else Value(args[TimeIndex(addr)])
  {
    var k := StampIndex(rev, addr);
    if !s.received && |args| <= k then Raised(s)
    else
      var t := if s.received then s else s.(received := true, epoch := Epoch(Value(args[k]), recv));
      if !t.recording then Done(t)
      else if !ArgsSuffice(addr, args) then Raised(t)
      else
        assert ClassOf(addr) == ControllerClass ==> HasControllerBlock(t.config.devices);
        var row := SampleRow(Width(t.config), HandBaseOf(rev, t.config.devices), addr, args, recv, t.epoch);
        var latest := if ClassOf(addr) == OtherClass then t.latest else Value(args[TimeIndex(addr)]);
        Done(t.(latest := latest, queue := t.queue + [row]))
  }

  /** A packet as the server delivers it: dropped unless the server is listening and the
      address is one the dispatcher maps; after an IndexError the state stays as it was. */
  function Receive(rev: Revision, s: State, listening: bool, addr: string, args: seq<Arg>, recv: real): (t: State)
    ensures !listening || addr !in s.config.devices ==> t == s
    ensures t.config == s.config && t.recording == s.recording
    ensures |s.queue| <= |t.queue| <= |s.queue| + 1 && t.queue[..|s.queue|] == s.queue
  {
    if !listening || addr !in s.config.devices then s
    else match Handle(rev, s, addr, args, recv)
      case Done(n) => n
      case Raised(at) => at
  }

  /** Every row the callback enqueues has a cell per column, and under the corrected layout
      exactly one. */
  lemma HandleKeepsValid(rev: Revision, s: State, addr: string, args: seq<Arg>, recv: real)
    requires addr in s.config.devices && Valid(rev, s)
    ensures Handle(rev, s, addr, args, recv).Done? ==> Valid(rev, Handle(rev, s, addr, args, recv).next)
  {
    var o := Handle(rev, s, addr, args, recv);
    if o.Done? && s.recording {
      var n := o.next;
      var w := Width(s.config);
      var row := n.queue[|s.queue|];
      assert |row| >= w;
      if rev == Corrected && ClassOf(addr) == HandClass {
        assert HasHandBlock(s.config.devices);
        assert HandBase(s.config.devices) + 168 <= w;
      }
      forall i | 0 <= i < |n.queue| ensures |n.queue[i]| >= w && (rev == Corrected ==> |n.queue[i]| == w) {
        if i < |s.queue| {
          assert n.queue[i] == n.queue[..|s.queue|][i] == s.queue[i];
        }
      }
    }
  }

  lemma ReceiveKeepsValid(rev: Revision, s: State, listening: bool, addr: string, args: seq<Arg>, recv: real)
    requires Valid(rev, s)
    ensures Valid(rev, Receive(rev, s, listening, addr, args, recv))
  {
    if listening && addr in s.config.devices {
      HandleKeepsValid(rev, s, addr, args, recv);
    }
  }

  /** The row `log_message` enqueues: the device name, the quoted message, no id, the
      latest recorded sender time, the receive time, both relative to the epoch, then NaN in
      every data column. Before any packet the sender-side and relative times are NaN. */
  function LogRow(s: State, device: string, message: string, recv: real): (r: Row)
    ensures |r| == Width(s.config) && Shaped(r)
    ensures r[0] == Str(device) && r[1] == Str("\"" + message + "\"") && r[2] == Int(-1)
    ensures r[4] == Num(recv * 1000.0)
    ensures !s.received ==> r[3] == NaN && r[5] == NaN && r[6] == NaN
    ensures s.received ==> r[3] == Num(s.latest * 1000.0) && r[5] == Num((s.latest - s.epoch.stamp) * 1000.0)
                             && r[6] == Num((recv - s.epoch.time) * 1000.0)
    ensures forall i :: 7 <= i < |r| ==> r[i] == NaN
  {
    var times :=
      if s.received then [Num(s.latest * 1000.0), Num(recv * 1000.0), Num((s.latest - s.epoch.stamp) * 1000.0), Num((recv - s.epoch.time) * 1000.0)]
      else [NaN, Num(recv * 1000.0), NaN, NaN];
    [Str(device), Str("\"" + message + "\""), Int(-1)] + times + NaNs(Width(s.config) - 7)
  }

  /** `log_message`: the row is enqueued whether or not recording is on. */
  function LogMessage(s: State, device: string, message: string, recv: real): (t: State)
    ensures t.(queue := s.queue) == s
    ensures t.queue == s.queue + [LogRow(s, device, message, recv)]
  {
    s.(queue := s.queue + [LogRow(s, device, message, recv)])
  }

  lemma LogMessageKeepsValid(rev: Revision, s: State, device: string, message: string, recv: real)
    requires Valid(rev, s)
    ensures Valid(rev, LogMessage(s, device, message, recv))
  {
    var t := LogMessage(s, device, message, recv);
    forall i | 0 <= i < |t.queue| ensures |t.queue[i]| == (if i < |s.queue| then |s.queue[i]| else Width(s.config)) {
    }
  }

  /** A recorded sample of a known device carries, in cells 3 and 5, the sender time the
      callback stores as the latest one, absolute and relative to the epoch, and in cell 6
      its receive time relative to the epoch. */
  lemma SampleCarriesLatest(rev: Revision, s: State, addr: string, args: seq<Arg>, recv: real)
    requires addr in s.config.devices && s.recording && ClassOf(addr) != OtherClass
    requires ArgsSuffice(addr, args) && (s.received || |args| > StampIndex(rev, addr))
    ensures var n := Handle(rev, s, addr, args, recv).next;
            && n.queue[|s.queue|][3] == Num(n.latest * 1000.0)
            && n.queue[|s.queue|][5] == Num((n.latest - n.epoch.stamp) * 1000.0)
            && n.queue[|s.queue|][6] == Num((recv - n.epoch.time) * 1000.0)
  {
    assert Handle(rev, s, addr, args, recv).Done?;
    RecordedStamps(rev, s, addr, args, recv);
  }

  /** The same, stated for a callback known to have returned. */
  lemma RecordedStamps(rev: Revision, s: State, addr: string, args: seq<Arg>, recv: real)
    requires addr in s.config.devices && s.recording && ClassOf(addr) != OtherClass
    requires Handle(rev, s, addr, args, recv).Done?
    ensures var n := Handle(rev, s, addr, args, recv).next;
            && n.queue[|s.queue|][3] == Num(n.latest * 1000.0)
            && n.queue[|s.queue|][5] == Num((n.latest - n.epoch.stamp) * 1000.0)
            && n.queue[|s.queue|][6] == Num((recv - n.epoch.time) * 1000.0)
  {
    var n := Handle(rev, s, addr, args, recv).next;
    var stamp := Value(args[TimeIndex(addr)]);
    var m := Meta(addr, IdCell(addr, args), stamp, recv, n.epoch);
    assert n.latest == stamp;
    assert HasMeta(n.queue[|s.queue|], m) by {
      assert ClassOf(addr) == ControllerClass ==> HasControllerBlock(s.config.devices);
    }
  }

  /** So a message logged right after such a sample carries the same sender time and
      relative sender time as the sample. */
  lemma MessageAfterSample(rev: Revision, s: State, addr: string, args: seq<Arg>, recv: real, device: string, message: string, later: real)
    requires addr in s.config.devices && s.recording && ClassOf(addr) != OtherClass
    requires ArgsSuffice(addr, args) && (s.received || |args| > StampIndex(rev, addr))
    ensures var n := Handle(rev, s, addr, args, recv).next;
            var r := LogRow(n, device, message, later);
            r[3] == n.queue[|s.queue|][3] && r[5] == n.queue[|s.queue|][5]
  {
    SampleCarriesLatest(rev, s, addr, args, recv);
  }

  /** A packet that arrives while recording is off latches the epoch but does not update
      the latest sender time, which keeps its placeholder -1.0. A message logged next
      therefore carries -1000 ms as its sender time, and the placeholder's distance from the
      epoch stamp as its relative sender time, not NaN. */
  lemma MessageAfterUnrecorded(rev: Revision, config: Config, addr: string, args: seq<Arg>, recv: real,
                               device: string, message: string, later: real)
    requires addr in config.devices && |args| > StampIndex(rev, addr)
    ensures var o := Handle(rev, Init(config, false), addr, args, recv);
            var stamp := Value(args[StampIndex(rev, addr)]);
            && o.Done? && o.next.received
            && LogRow(o.next, device, message, later)[3] == Num(-1000.0)
            && LogRow(o.next, device, message, later)[5] == Num((-1.0 - stamp) * 1000.0)
            && LogRow(o.next, device, message, later)[6] == Num((later - recv) * 1000.0)
  {
    var o := Handle(rev, Init(config, false), addr, args, recv);
    assert o.next.latest == -1.0 && o.next.epoch == Epoch(Value(args[StampIndex(rev, addr)]), recv);
  }

  /** `start_recording`: only the switch changes. */
  function StartRecording(s: State): (t: State)
    ensures t.recording && t.(recording := s.recording) == s
  {
    s.(recording := true)
  }

  /** `stop_recording`: only the switch changes; the file stays open. */
  function StopRecording(s: State): (t: State)
    ensures !t.recording && t.(recording := s.recording) == s
  {
    s.(recording := false)
  }
}

=== FILE: session.dfy ===
/** A recording session: the receiver, the recorder thread and the OSC server side by side.
    Packets, `log_message` calls, the recording switch and turns of the recorder thread are
    events applied in the order they happen; `close` stops recording and listening, waits for
    the queue to empty and stops the thread. */
module Session {
  import opened Cells
  import opened Layout
  import opened Decoder
  import opened Receiver
  import opened Writer

  datatype Event =
    | Packet(addr: string, args: seq<Arg>, recv: real)
    | Message(device: string, text: string, recv: real)
    | Start
    | Stop
    | WriterTurn

  datatype Session = Session(rx: State, log: Log, listening: bool)

  function FormatsOf(c: Config): seq<Spec>
  {
    Formats(c.devices, c.precision)
  }

  /** The session right after construction: the header line is in the file, the thread is
      running, the server is listening. */
  function Open(config: Config, autoRecord: bool): (s: Session)
    ensures s.rx == Init(config, autoRecord) && s.listening && s.log.running
    ensures s.log.lines == [HeaderLine(config.sep, config.devices)]
  {
    Session(Init(config, autoRecord), Log([HeaderLine(config.sep, config.devices)], true), true)
  }

  function Step(rev: Revision, render: Render, s: Session, e: Event): (t: Session)
    ensures t.rx.config == s.rx.config && t.listening == s.listening
  {
    match e
    case Packet(addr, args, recv) => s.(rx := Receive(rev, s.rx, s.listening, addr, args, recv))
    case Message(device, text, recv) => s.(rx := LogMessage(s.rx, device, text, recv))
    case Start => s.(rx := StartRecording(s.rx))
    case Stop => s.(rx := StopRecording(s.rx))
    case WriterTurn =>
      var w := WriteNext(s.rx.config.sep, FormatsOf(s.rx.config), render, s.rx.queue, s.log);
      s.(rx := s.rx.(queue := w.0), log := w.1)
  }

  function Run(rev: Revision, render: Render, s: Session, trace: seq<Event>): (t: Session)
    ensures t.rx.config == s.rx.config && t.listening == s.listening
    decreases |trace|
  {
    if trace == [] then s else Run(rev, render, Step(rev, render, s, trace[0]), trace[1..])
  }

  /** The rows one event puts on the queue. */
  function Added(rev: Revision, s: Session, e: Event): (rows: seq<Row>)
    ensures |rows| <= 1
  {
    match e
    case Packet(addr, args, recv) => Receive(rev, s.rx, s.listening, addr, args, recv).queue[|s.rx.queue|..]
    case Message(device, text, recv) => [LogRow(s.rx, device, text, recv)]
    case _ => []
  }

  /** The rows a run of events puts on the queue, in order. */
  function Emitted(rev: Revision, render: Render, s: Session, trace: seq<Event>): seq<Row>
    decreases |trace|
  {
    if trace == [] then []
    else Added(rev, s, trace[0]) + Emitted(rev, render, Step(rev, render, s, trace[0]), trace[1..])
  }

  /** The file as it will read once every queued row is written. */
  function Ledger(render: Render, s: Session): seq<string>
  {
    s.log.lines + Lines(s.rx.config.sep, FormatsOf(s.rx.config), render, s.rx.queue)
  }

  /** Every queued row has the cell kinds of a log row and a cell for every column. */
  predicate Conforming(s: State)
  {
    forall i :: 0 <= i < |s.queue| ==> Shaped(s.queue[i]) && |s.queue[i]| >= Width(s.config)
  }

  /** Packets of the head and controller classes carry an integer device id. */
  predicate IntegerId(e: Event)
  {
    e.Packet? && |e.args| >= 1 && (ClassOf(e.addr) == HeadClass || ClassOf(e.addr) == ControllerClass) ==> e.args[0].IntArg?
  }

  predicate IntegerIds(trace: seq<Event>)
  {
    forall i :: 0 <= i < |trace| ==> IntegerId(trace[i])
  }

  lemma IntegerIdsTail(trace: seq<Event>)
    requires trace != [] && IntegerIds(trace)
    ensures IntegerId(trace[0]) && IntegerIds(trace[1..])
  {
    assert IntegerId(trace[0]);
    forall i | 0 <= i < |trace[1..]| ensures IntegerId(trace[1..][i]) {
      assert trace[1..][i] == trace[i + 1];
    }
  }

  /** Every row is non-empty and formats. */
  predicate AllWritten(formats: seq<Spec>, rows: seq<Row>)
  {
    forall i :: 0 <= i < |rows| ==> rows[i] != [] && Renders(formats, rows[i])
  }

  lemma AllWrittenAppend(formats: seq<Spec>, a: seq<Row>, b: seq<Row>)
    requires AllWritten(formats, a) && AllWritten(formats, b)
    ensures AllWritten(formats, a + b)
  {
    forall i | 0 <= i < |a + b| ensures (a + b)[i] != [] && Renders(formats, (a + b)[i]) {
      if i < |a| { assert (a + b)[i] == a[i]; } else { assert (a + b)[i] == b[i - |a|]; }
    }
  }

  lemma ConformingWritable(s: State, i: nat)
    requires Conforming(s) && i < |s.queue|
    ensures s.queue[i] != [] && Renders(FormatsOf(s.config), s.queue[i])
  {
    ShapedRenders(s.config.devices, s.config.precision, s.queue[i]);
  }

  /** A packet or message event appends exactly the rows it adds. */
  lemma StepAppends(rev: Revision, render: Render, s: Session, e: Event)
    requires !e.WriterTurn?
    ensures Step(rev, render, s, e).rx.queue == s.rx.queue + Added(rev, s, e)
    ensures Step(rev, render, s, e).log == s.log
  {
    if e.Packet? {
      var t := Receive(rev, s.rx, s.listening, e.addr, e.args, e.recv);
      assert t.queue == t.queue[..|s.rx.queue|] + t.queue[|s.rx.queue|..];
    }
  }

  lemma HandleKeepsConforming(rev: Revision, s: State, addr: string, args: seq<Arg>, recv: real)
    requires addr in s.config.devices && Conforming(s)
    requires (ClassOf(addr) == HeadClass || ClassOf(addr) == ControllerClass) && |args| >= 1 ==> args[0].IntArg?
    ensures Handle(rev, s, addr, args, recv).Done? ==> Conforming(Handle(rev, s, addr, args, recv).next)
  {
    var o := Handle(rev, s, addr, args, recv);
    if o.Done? && s.recording {
      var n := o.next;
      assert ClassOf(addr) == ControllerClass ==> HasControllerBlock(s.config.devices);
      SampleShaped(Width(s.config), HandBaseOf(rev, s.config.devices), addr, args, recv, n.epoch);
      forall i | 0 <= i < |n.queue| ensures Shaped(n.queue[i]) && |n.queue[i]| >= Width(n.config) {
        if i < |s.queue| {
          assert n.queue[i] == n.queue[..|s.queue|][i] == s.queue[i];
        }
      }
    }
  }

  lemma StepKeepsConforming(rev: Revision, render: Render, s: Session, e: Event)
    requires Conforming(s.rx) && IntegerId(e)
    ensures Conforming(Step(rev, render, s, e).rx)
  {
    match e
    case Packet(addr, args, recv) =>
      if s.listening && addr in s.rx.config.devices {
        HandleKeepsConforming(rev, s.rx, addr, args, recv);
      }
    case Message(device, text, recv) =>
      var t := Step(rev, render, s, e).rx;
      forall i | 0 <= i < |t.queue| ensures Shaped(t.queue[i]) && |t.queue[i]| >= Width(t.config) {
        if i == |s.rx.queue| {
          assert t.queue[i] == LogRow(s.rx, device, text, recv);
        }
      }
    case Start =>
    case Stop =>
    case WriterTurn =>
      var t := Step(rev, render, s, e).rx;
      if s.log.running && s.rx.queue != [] {
        assert t.queue == s.rx.queue[1..];
        forall i | 0 <= i < |t.queue| ensures Shaped(t.queue[i]) && |t.queue[i]| >= Width(t.config) {
          assert t.queue[i] == s.rx.queue[i + 1];
        }
      }
  }

  /** Each row an event adds is non-empty and formats. */
  lemma AddedWritable(rev: Revision, render: Render, s: Session, e: Event)
    requires Conforming(s.rx) && IntegerId(e)
    ensures AllWritten(FormatsOf(s.rx.config), Added(rev, s, e))
  {
    var added := Added(rev, s, e);
    if added != [] {
      var n := Step(rev, render, s, e);
      StepAppends(rev, render, s, e);
      StepKeepsConforming(rev, render, s, e);
      assert n.rx.queue[|s.rx.queue|] == added[0];
      ConformingWritable(n.rx, |s.rx.queue|);
    }
  }

  /** A turn of the recorder thread moves the oldest row's line from the queue to the file,
      and the thread keeps running. */
  lemma TurnLedger(rev: Revision, render: Render, s: Session)
    requires Conforming(s.rx) && s.log.running
    ensures Step(rev, render, s, WriterTurn).log.running
    ensures Ledger(render, Step(rev, render, s, WriterTurn)) == Ledger(render, s)
  {
    var q := s.rx.queue;
    if q != [] {
      var sep, formats := s.rx.config.sep, FormatsOf(s.rx.config);
      var first := Written(sep, formats, render, q[0]);
      ConformingWritable(s.rx, 0);
      var t := Step(rev, render, s, WriterTurn);
      assert t.rx.queue == q[1..] && t.log.lines == s.log.lines + first;
      assert Lines(sep, formats, render, q) == first + Lines(sep, formats, render, q[1..]);
      AppendAssoc(s.log.lines, first, Lines(sep, formats, render, q[1..]));
    }
  }

  /** One event: a packet or a message appends the lines of its rows to the ledger, a turn of
      the recorder thread moves a line from the queue to the file, and the thread keeps
      running. */
  lemma StepLedger(rev: Revision, render: Render, s: Session, e: Event)
    requires Conforming(s.rx) && s.log.running
    ensures Step(rev, render, s, e).log.running
    ensures Ledger(render, Step(rev, render, s, e))
              == Ledger(render, s) + Lines(s.rx.config.sep, FormatsOf(s.rx.config), render, Added(rev, s, e))
  {
    if e.WriterTurn? {
      TurnLedger(rev, render, s);
    } else {
      var sep, formats := s.rx.config.sep, FormatsOf(s.rx.config);
      StepAppends(rev, render, s, e);
      LinesAppend(sep, formats, render, s.rx.queue, Added(rev, s, e));
      AppendAssoc(s.log.lines, Lines(sep, formats, render, s.rx.queue), Lines(sep, formats, render, Added(rev, s, e)));
    }
  }

  /** A run is its first event followed by the rest. */
  lemma RunCons(rev: Revision, render: Render, s: Session, trace: seq<Event>)
    requires trace != []
    ensures var n := Step(rev, render, s, trace[0]);
            && Run(rev, render, s, trace) == Run(rev, render, n, trace[1..])
            && Emitted(rev, render, s, trace) == Added(rev, s, trace[0]) + Emitted(rev, render, n, trace[1..])
  {
  }

  /** Over a run with integer device ids, every queued row keeps the cell kinds of a log row
      and a cell for every column. */
  lemma {:induction false} RunKeepsConforming(rev: Revision, render: Render, s: Session, trace: seq<Event>)
    requires Conforming(s.rx) && IntegerIds(trace)
    ensures Conforming(Run(rev, render, s, trace).rx)
    decreases |trace|
  {
    if trace != [] {
      IntegerIdsTail(trace);
      StepKeepsConforming(rev, render, s, trace[0]);
      RunCons(rev, render, s, trace);
      RunKeepsConforming(rev, render, Step(rev, render, s, trace[0]), trace[1..]);
    }
  }

  /** Ledger growth composes: growing by the lines of `a`, then by those of `b`, is growing
      by the lines of `a + b`. */
  lemma LedgerChain(render: Render, s: Session, n: Session, t: Session, a: seq<Row>, b: seq<Row>)
    requires n.rx.config == s.rx.config
    requires Ledger(render, n) == Ledger(render, s) + Lines(s.rx.config.sep, FormatsOf(s.rx.config), render, a)
    requires Ledger(render, t) == Ledger(render, n) + Lines(n.rx.config.sep, FormatsOf(n.rx.config), render, b)
    ensures Ledger(render, t) == Ledger(render, s) + Lines(s.rx.config.sep, FormatsOf(s.rx.config), render, a + b)
  {
    var sep, formats := s.rx.config.sep, FormatsOf(s.rx.config);
    LinesAppend(sep, formats, render, a, b);
    AppendAssoc(Ledger(render, s), Lines(sep, formats, render, a), Lines(sep, formats, render, b));
  }

  /** Over a run with integer device ids, the recorder thread never stops, and the file
      as it will read once the queue is written grows by exactly the lines of the rows the run
      emitted, in the order they were emitted. */
  lemma {:induction false} RunLedger(rev: Revision, render: Render, s: Session, trace: seq<Event>)
    requires Conforming(s.rx) && s.log.running && IntegerIds(trace)
    ensures Run(rev, render, s, trace).log.running
    ensures Ledger(render, Run(rev, render, s, trace))
              == Ledger(render, s) + Lines(s.rx.config.sep, FormatsOf(s.rx.config), render, Emitted(rev, render, s, trace))
    decreases |trace|
  {
    if trace != [] {
      var e := trace[0];
      var n := Step(rev, render, s, e);
      var tail := trace[1..];
      IntegerIdsTail(trace);
      assert Conforming(n.rx) by { StepKeepsConforming(rev, render, s, e); }
      StepLedger(rev, render, s, e);
      RunLedger(rev, render, n, tail);
      RunCons(rev, render, s, trace);
      LedgerChain(render, s, n, Run(rev, render, n, tail), Added(rev, s, e), Emitted(rev, render, n, tail));
    }
  }

  /** Once a packet has arrived the epoch is fixed: no later event changes it. */
  lemma StepKeepsEpoch(rev: Revision, render: Render, s: Session, e: Event)
    requires s.rx.received
    ensures Step(rev, render, s, e).rx.received && Step(rev, render, s, e).rx.epoch == s.rx.epoch
  {
  }

  lemma {:induction false} EpochLatchedOnce(rev: Revision, render: Render, s: Session, trace: seq<Event>)
    requires s.rx.received
    ensures Run(rev, render, s, trace).rx.received && Run(rev, render, s, trace).rx.epoch == s.rx.epoch
    decreases |trace|
  {
    if trace != [] {
      StepKeepsEpoch(rev, render, s, trace[0]);
      EpochLatchedOnce(rev, render, Step(rev, render, s, trace[0]), trace[1..]);
    }
  }

  /** The number of `log_message` calls in a run. */
  function Messages(trace: seq<Event>): (n: nat)
    ensures n <= |trace|
    decreases |trace|
  {
    if trace == [] then 0 else (if trace[0].Message? then 1 else 0) + Messages(trace[1..])
  }

  /** While recording is off, packets only latch the epoch: the rows a run emits are its
      messages, one each. */
  lemma {:induction false} StoppedRecordsMessagesOnly(rev: Revision, render: Render, s: Session, trace: seq<Event>)
    requires !s.rx.recording
    requires forall i :: 0 <= i < |trace| ==> !trace[i].Start?
    ensures !Run(rev, render, s, trace).rx.recording
    ensures |Emitted(rev, render, s, trace)| == Messages(trace)
    decreases |trace|
  {
    if trace != [] {
      var e := trace[0];
      var n := Step(rev, render, s, e);
      assert !e.Start?;
      if e.Packet? {
        assert |Added(rev, s, e)| == 0;
      }
      assert forall i :: 0 <= i < |trace[1..]| ==> !trace[1..][i].Start?;
      StoppedRecordsMessagesOnly(rev, render, n, trace[1..]);
    }
  }

  /** The outcome of `close`: it returns with the file closed, or the queue never empties
      and it waits forever. */
  datatype Closing = Closed(final: Session) | SpinsForever

  /** `close`: recording and listening stop, the recorder thread drains the queue while
      `close` waits for it to be empty, then the thread is told to stop. */
  function Close(render: Render, s: Session): (c: Closing)
    ensures c.Closed? ==> !c.final.rx.recording && !c.final.listening && !c.final.log.running && c.final.rx.queue == []
  {
    var rx := StopRecording(s.rx);
    var t := Drain(rx.config.sep, FormatsOf(rx.config), render, rx.queue, s.log);
    if t.0 == [] then Closed(Session(rx.(queue := []), Log(t.1.lines, false), false))
    else SpinsForever
  }

  /** `close` returns exactly when the queue empties: it is empty already, or the thread is
      running and every row but possibly the last can be formatted. A second `close` after
      `log_message` has queued a row waits forever, since the thread has stopped. */
  lemma CloseReturns(render: Render, s: Session)
    ensures var k := FirstUnwritable(FormatsOf(s.rx.config), s.rx.queue);
            Close(render, s).Closed? <==> s.rx.queue == [] || (s.log.running && k + 1 >= |s.rx.queue|)
  {
    if s.log.running {
      DrainWrites(s.rx.config.sep, FormatsOf(s.rx.config), render, s.rx.queue, s.log);
    }
  }

  /** With every queued row writable, `close` returns and the file holds the ledger. */
  lemma CloseWritesLedger(render: Render, s: Session)
    requires Conforming(s.rx) && s.log.running
    ensures Close(render, s).Closed? && Close(render, s).final.log.lines == Ledger(render, s)
  {
    var formats := FormatsOf(s.rx.config);
    DrainWrites(s.rx.config.sep, formats, render, s.rx.queue, s.log);
    var k := FirstUnwritable(formats, s.rx.queue);
    if k < |s.rx.queue| {
      ConformingWritable(s.rx, k);
      assert false;
    }
    assert s.rx.queue[..k] == s.rx.queue;
  }

  /** A whole session: opened, driven by any events with integer device ids, then closed.
      `close` returns, and the file holds the header line followed by one line per emitted
      row, in the order the rows were emitted. */
  lemma SessionFile(rev: Revision, render: Render, config: Config, autoRecord: bool, trace: seq<Event>)
    requires IntegerIds(trace)
    ensures var s := Run(rev, render, Open(config, autoRecord), trace);
            var rows := Emitted(rev, render, Open(config, autoRecord), trace);
            && Close(render, s).Closed?
            && Close(render, s).final.log.lines == [HeaderLine(config.sep, config.devices)] + Lines(config.sep, FormatsOf(config), render, rows)
            && |Lines(config.sep, FormatsOf(config), render, rows)| == |rows|
  {
    var s0 := Open(config, autoRecord);
    var s := Run(rev, render, s0, trace);
    var rows := Emitted(rev, render, s0, trace);
    RunLedger(rev, render, s0, trace);
    RunKeepsConforming(rev, render, s0, trace);
    CloseWritesLedger(render, s);
    EmittedConforming(rev, render, s0, trace);
  }

  /** Every emitted row is non-empty and formats, so each writes exactly one line. */
  lemma {:induction false} EmittedConforming(rev: Revision, render: Render, s: Session, trace: seq<Event>)
    requires Conforming(s.rx) && IntegerIds(trace)
    ensures AllWritten(FormatsOf(s.rx.config), Emitted(rev, render, s, trace))
    decreases |trace|
  {
    if trace != [] {
      var e := trace[0];
      var n := Step(rev, render, s, e);
      assert IntegerId(trace[0]);
      StepKeepsConforming(rev, render, s, e);
      IntegerIdsTail(trace);
      EmittedConforming(rev, render, n, trace[1..]);
      assert FormatsOf(n.rx.config) == FormatsOf(s.rx.config);
      AddedWritable(rev, render, s, e);
      AllWrittenAppend(FormatsOf(s.rx.config), Added(rev, s, e), Emitted(rev, render, n, trace[1..]));
    }
  }
}

=== FILE: text.dfy ===
/** String operations with Python's meaning: `sep.join(xs)` and `s.strip(c)`, plus the
    single-character split that undoes a join. */
module Text {

  /** `sep.join(xs)`. */
  function Join(sep: string, xs: seq<string>): (r: string)
    ensures |xs| == 0 ==> r == ""
    ensures |xs| == 1 ==> r == xs[0]
    decreases |xs|
  {
    if |xs| == 0 then ""
    else if |xs| == 1 then xs[0]
    else xs[0] + sep + Join(sep, xs[1..])
  }

  /** `s.split(c)` for a one-character separator: the pieces between separators. */
  function Split(s: string, c: char): (parts: seq<string>)
    ensures |parts| >= 1
    ensures forall i :: 0 <= i < |parts| ==> c !in parts[i]
    decreases |s|
  {
    if |s| == 0 then [""]
    else
      var rest := Split(s[1..], c);
      if s[0] == c then [""] + rest else [[s[0]] + rest[0]] + rest[1..]
  }

  lemma {:induction false} SplitPlain(x: string, c: char)
    requires c !in x
    ensures Split(x, c) == [x]
    decreases |x|
  {
    if |x| > 0 {
      SplitPlain(x[1..], c);
      assert [x[0]] + x[1..] == x;
    }
  }

  lemma {:induction false} SplitAtSeparator(x: string, c: char, y: string)
    requires c !in x
    ensures Split(x + [c] + y, c) == [x] + Split(y, c)
    decreases |x|
  {
    if |x| == 0 {
      assert x + [c] + y == [c] + y;
      assert ([c] + y)[1..] == y;
    } else {
      SplitAtSeparator(x[1..], c, y);
      assert (x + [c] + y)[1..] == x[1..] + [c] + y;
      assert [x[0]] + x[1..] == x;
    }
  }

  /** Joining with a one-character separator that occurs in no piece can be undone by
      splitting on it. */
  lemma {:induction false} SplitJoin(xs: seq<string>, c: char)
    requires |xs| >= 1
    requires forall i :: 0 <= i < |xs| ==> c !in xs[i]
    ensures Split(Join([c], xs), c) == xs
    decreases |xs|
  {
    if |xs| == 1 {
      SplitPlain(xs[0], c);
    } else {
      SplitJoin(xs[1..], c);
      SplitAtSeparator(xs[0], c, Join([c], xs[1..]));
      assert [xs[0]] + xs[1..] == xs;
    }
  }

  function StripLeading(s: string, c: char): (r: string)
    ensures |r| <= |s| && r == s[|s| - |r|..]
    ensures |r| > 0 ==> r[0] != c
    decreases |s|
  {
    if |s| > 0 && s[0] == c then StripLeading(s[1..], c) else s
  }

  function StripTrailing(s: string, c: char): (r: string)
    ensures |r| <= |s| && r == s[..|r|]
    ensures |r| > 0 ==> r[|r| - 1] != c
    decreases |s|
  {
    if |s| > 0 && s[|s| - 1] == c then StripTrailing(s[..|s| - 1], c) else s
  }

  /** `s.strip(c)`: every leading and trailing `c` removed. */
  function Strip(s: string, c: char): (r: string)
    ensures |r| <= |s|
    ensures |r| > 0 ==> r[0] != c && r[|r| - 1] != c
  {
    StripTrailing(StripLeading(s, c), c)
  }

  /** A string with exactly one leading `c` and no trailing one strips to its tail. */
  lemma StripOneLeading(s: string, c: char)
    requires |s| >= 2 && s[0] == c && s[1] != c && s[|s| - 1] != c
    ensures Strip(s, c) == s[1..]
  {
    assert StripLeading(s[1..], c) == s[1..];
  }
}

=== FILE: writer.dfy ===
/** The recorder thread: it takes one row at a time off the queue, renders it with the joined
    format string and appends it to the log file. A row the format string rejects raises
    inside the thread, which ends the thread; the row it took is lost. */
module Writer {
  import opened Cells
  import opened Text
  import opened Layout

  /** How `str.format` renders one cell for one specifier. Digits, rounding and the text of
      NaN are left to this parameter. */
  type Render = (Spec, Cell) -> string

  /** The log file's lines and whether the recorder thread is still running. */
  datatype Log = Log(lines: seq<string>, running: bool)

  /** The rendered cells of a row, one per specifier; cells past the last specifier are
      ignored by `str.format`. */
  function Rendered(formats: seq<Spec>, render: Render, row: Row): (cells: seq<string>)
    requires |row| >= |formats|
    ensures |cells| == |formats|
    ensures forall i :: 0 <= i < |formats| ==> cells[i] == render(formats[i], row[i])
  {
    seq(|formats|, i requires 0 <= i < |formats| => render(formats[i], row[i]))
  }

  /** The line written for a row: the rendered cells joined by the separator, then a newline. */
  function Line(sep: string, formats: seq<Spec>, render: Render, row: Row): (line: string)
    requires |row| >= |formats|
    ensures |line| >= 1 && line[|line| - 1] == '\n'
  {
    Join(sep, Rendered(formats, render, row)) + "\n"
  }

  /** With a one-character separator that no rendered cell contains, a line splits back into
      exactly one field per column, each the rendering of its cell. */
  lemma LineFields(c: char, formats: seq<Spec>, render: Render, row: Row)
    requires |row| >= |formats| >= 1
    requires forall i :: 0 <= i < |formats| ==> c !in render(formats[i], row[i])
    ensures var line := Line([c], formats, render, row);
      && line[|line| - 1] == '\n'
      && Split(line[..|line| - 1], c) == Rendered(formats, render, row)
  {
    var line := Line([c], formats, render, row);
    assert line[..|line| - 1] == Join([c], Rendered(formats, render, row));
    SplitJoin(Rendered(formats, render, row), c);
  }

  /** A row the thread handles without raising: the empty list, which `if sample:` skips, or
      one the format string accepts. */
  predicate Writable(formats: seq<Spec>, row: Row)
  {
    row == [] || Renders(formats, row)
  }

  /** The line a row contributes to the file: none for an empty row, which `if sample:`
      skips, or for a row the format string rejects, which ends the thread instead. */
  function Written(sep: string, formats: seq<Spec>, render: Render, row: Row): (lines: seq<string>)
    ensures |lines| <= 1
    ensures row != [] && Renders(formats, row) ==> lines == [Line(sep, formats, render, row)]
    ensures row == [] || !Renders(formats, row) ==> lines == []
  {
    if row != [] && Renders(formats, row) then [Line(sep, formats, render, row)] else []
  }

  /** The lines written for a run of rows, in queue order. */
  function Lines(sep: string, formats: seq<Spec>, render: Render, rows: seq<Row>): (lines: seq<string>)
    ensures |lines| <= |rows|
    ensures (forall i :: 0 <= i < |rows| ==> rows[i] != [] && Renders(formats, rows[i])) ==> |lines| == |rows|
    decreases |rows|
  {
    if rows == [] then []
    else Written(sep, formats, render, rows[0]) + Lines(sep, formats, render, rows[1..])
  }

  lemma {:induction false} LinesAppend(sep: string, formats: seq<Spec>, render: Render, a: seq<Row>, b: seq<Row>)
    ensures Lines(sep, formats, render, a + b) == Lines(sep, formats, render, a) + Lines(sep, formats, render, b)
    decreases |a|
  {
    if a == [] {
      assert a + b == b;
    } else {
      assert (a + b)[0] == a[0] && (a + b)[1..] == a[1..] + b;
      LinesAppend(sep, formats, render, a[1..], b);
      AppendAssoc(Written(sep, formats, render, a[0]), Lines(sep, formats, render, a[1..]), Lines(sep, formats, render, b));
    }
  }

  /** One pass of the thread's loop with the queue non-empty or empty: it takes the oldest
      row and writes its line, skips it when it is empty, or raises and stops. */
  function WriteNext(sep: string, formats: seq<Spec>, render: Render, queue: seq<Row>, log: Log): (t: (seq<Row>, Log))
    ensures !log.running || queue == [] ==> t == (queue, log)
    ensures log.running && queue != [] ==> t.0 == queue[1..]
    ensures log.running && queue != [] && Writable(formats, queue[0]) ==>
              t.1 == Log(log.lines + Written(sep, formats, render, queue[0]), true)
    ensures log.running && queue != [] && !Writable(formats, queue[0]) ==> t.1 == Log(log.lines, false)
  {
    if !log.running || queue == [] then (queue, log)
    else
      var sample := queue[0];
      if sample == [] then (queue[1..], log)
      else if !Renders(formats, sample) then (queue[1..], log.(running := false))
      else (queue[1..], log.(lines := log.lines + [Line(sep, formats, render, sample)]))
  }

  /** The position of the first row the thread would raise on, or the queue's length. */
  function FirstUnwritable(formats: seq<Spec>, rows: seq<Row>): (k: nat)
    ensures k <= |rows|
    ensures forall i :: 0 <= i < k ==> Writable(formats, rows[i])
    ensures k < |rows| ==> !Writable(formats, rows[k])
    decreases |rows|
  {
    if rows == [] || !Writable(formats, rows[0]) then 0
    else 1 + FirstUnwritable(formats, rows[1..])
  }

  /** The thread working until the queue is empty or it has stopped. */
  function Drain(sep: string, formats: seq<Spec>, render: Render, queue: seq<Row>, log: Log): (t: (seq<Row>, Log))
    ensures !log.running ==> t == (queue, log)
    ensures |t.0| <= |queue|
    decreases |queue|
  {
    if !log.running || queue == [] then (queue, log)
    else
      var next := WriteNext(sep, formats, render, queue, log);
      Drain(sep, formats, render, next.0, next.1)
  }

  /** The thread stops taking rows only once the queue is empty or it has stopped. */
  lemma {:induction false} DrainEnds(sep: string, formats: seq<Spec>, render: Render, queue: seq<Row>, log: Log)
    ensures var t := Drain(sep, formats, render, queue, log);
            t.0 == [] || !t.1.running
    decreases |queue|
  {
    if log.running && queue != [] {
      var next := WriteNext(sep, formats, render, queue, log);
      DrainEnds(sep, formats, render, next.0, next.1);
    }
  }

  /** Draining past a writable first row is writing its line, then draining the rest. */
  lemma DrainStep(sep: string, formats: seq<Spec>, render: Render, queue: seq<Row>, log: Log)
    requires log.running && queue != [] && Writable(formats, queue[0])
    ensures Drain(sep, formats, render, queue, log)
              == Drain(sep, formats, render, queue[1..], Log(log.lines + Written(sep, formats, render, queue[0]), true))
    ensures FirstUnwritable(formats, queue) == 1 + FirstUnwritable(formats, queue[1..])
    ensures var k := FirstUnwritable(formats, queue);
            Lines(sep, formats, render, queue[..k])
              == Written(sep, formats, render, queue[0]) + Lines(sep, formats, render, queue[1..][..k - 1])
  {
    var k := FirstUnwritable(formats, queue);
    assert queue[..k][0] == queue[0] && queue[..k][1..] == queue[1..][..k - 1];
  }

  /** A running thread that meets a row it cannot format loses it and stops. */
  lemma DrainStops(sep: string, formats: seq<Spec>, render: Render, queue: seq<Row>, log: Log)
    requires log.running && queue != [] && !Writable(formats, queue[0])
    ensures Drain(sep, formats, render, queue, log) == (queue[1..], Log(log.lines, false))
    ensures FirstUnwritable(formats, queue) == 0
  {
  }

  /** What a running thread does with the queue: writes the lines of every row before the
      first one it cannot format, loses that row and stops; if there is none, writes every
      line, empties the queue and keeps running. */
  predicate DrainedAs(sep: string, formats: seq<Spec>, render: Render, queue: seq<Row>, log: Log)
  {
    var t := Drain(sep, formats, render, queue, log);
    var k := FirstUnwritable(formats, queue);
    && t.1.lines == log.lines + Lines(sep, formats, render, queue[..k])
    && t.1.running == (k == |queue|)
    && t.0 == if k == |queue| then [] else queue[k + 1..]
  }

  /** Past a writable first row, the rest of the queue drained as described means the whole
      queue is. */
  lemma DrainedAsStep(sep: string, formats: seq<Spec>, render: Render, queue: seq<Row>, log: Log)
    requires log.running && queue != [] && Writable(formats, queue[0])
    requires DrainedAs(sep, formats, render, queue[1..], Log(log.lines + Written(sep, formats, render, queue[0]), true))
    ensures DrainedAs(sep, formats, render, queue, log)
  {
    var k := FirstUnwritable(formats, queue);
    var first := Written(sep, formats, render, queue[0]);
    var rest := Lines(sep, formats, render, queue[1..][..k - 1]);
    DrainStep(sep, formats, render, queue, log);
    assert Drain(sep, formats, render, queue, log).1.lines == (log.lines + first) + rest;
    AppendAssoc(log.lines, first, rest);
    if k < |queue| {
      assert queue[1..][k - 1 + 1..] == queue[k + 1..];
    }
  }

  /** A running thread writes the lines of every row before the first one it cannot format,
      loses that row and stops; if there is none, it writes every line, empties the queue and
      keeps running. */
  lemma {:induction false} DrainWrites(sep: string, formats: seq<Spec>, render: Render, queue: seq<Row>, log: Log)
    requires log.running
    ensures var t := Drain(sep, formats, render, queue, log);
            var k := FirstUnwritable(formats, queue);
            && t.1.lines == log.lines + Lines(sep, formats, render, queue[..k])
            && t.1.running == (k == |queue|)
            && t.0 == if k == |queue| then [] else queue[k + 1..]
    decreases |queue|
  {
    if queue == [] {
      assert queue[..0] == [];
    } else if Writable(formats, queue[0]) {
      var next := Log(log.lines + Written(sep, formats, render, queue[0]), true);
      DrainWrites(sep, formats, render, queue[1..], next);
      DrainedAsStep(sep, formats, render, queue, log);
    } else {
      DrainStops(sep, formats, render, queue, log);
      assert queue[..0] == [];
    }
  }
}
